=== FILE: README.md ===
# Patch data adapters, modelled in Dafny

This project models the pure post-processing of the data adapters in
`src/lib/apis.ts`, and the postcode cleaning on the search page
(`src/app/page.tsx`). Each adapter fetches one open-data service for a
location and reshapes the response into a small report: crime counts per
category, flood stations and warnings, house sales and their average price,
the nearest bathing waters, species counts, listed buildings by grade,
ancient trees, and Natural England protected areas.

In the model every adapter is a pure function. Its input is the
already-parsed response, as a datatype whose `Option` fields stand for
JSON fields that may be missing. The request's outcome is a
`Fetch<T>`: `Threw` (network failure, timeout or unparsable body, all
caught by the adapter's `try`), `NotOk` (a non-success status) or
`Ok(body)`. The result is `Option<Report>`, with `None` for the adapter's
`null`.

Modules, one per file:

- `Wrappers` — `Option`, `Field` and `Fetch`. An `Option` field is either
  missing or present; the adapters read a JSON `null` exactly like a missing
  field, so `None` stands for both. The exception is a value used as a
  property name (`byGrade[b.grade]`): `undefined` and `null` are stored
  under different keys there, so such fields are a `Field` with separate
  `Absent` and `Null` cases.
- `Seqs` — prefixes (`slice`), `map`, `filter` (with the multiplicity it
  keeps), occurrence counts, and the
  insertion-ordered de-duplication of `Array.from(new Set(xs))`.
- `Sorting` — a stable insertion sort by a real key. JavaScript's
  `Array.prototype.sort` is stable, so with a consistent comparator its
  output is exactly this sort's output.
- `Counting` — a plain object used as a counter
  (`byKey[k] = (byKey[k] || 0) + 1`), as a sequence of entries in insertion
  order, and `Object.entries(...).sort((a, b) => b[1] - a[1])`.
- `Text` — JavaScript's `\s` whitespace class, ASCII upper-casing, `trim`,
  `includes`, `split('/').pop()`, and `x || default` for strings.
- `Postcode` — the house-price postcode formatter and the search page's
  cleaning and navigation guard.
- `Crime`, `Flood`, `HousePrices`, `BathingWater`, `Species`,
  `ListedBuildings`, `AncientTrees`, `NaturalEngland` — one per adapter.

Distances from the query point are opaque `real` values supplied with each
item. The model never computes them.

## Model

| member | source | states |
|---|---|---|
| Counting.RankedTallySpec | src/lib/apis.ts:34-41 | A counter over a list of keys, ranked by count: every key once, each with its number of occurrences, counts summing to the list's length, never increasing |
| Crime.CategoryCounts | src/lib/apis.ts:34-42 | One entry per distinct category label, holding that label's number of occurrences; the counts sum to the number of crimes and are listed largest first |
| Crime.CategoryCountsTies | src/lib/apis.ts:34-41 | Categories with equal counts are listed in the order they first occur among the crimes |
| Crime.CrimeSummary | src/lib/apis.ts:30-45 | Null exactly when the request fails or a crime lacks a category; otherwise `total` is the number of crimes, the per-category counts sum to it, categories are distinct, contain no `-`, are exactly the relabelled categories, counts are non-increasing, and `month` is the first crime's non-empty month or "unknown" |
| Flood.StatusOf | src/lib/apis.ts:63 | Active exactly when the status contains "Active"; Closed exactly when it contains "Closed" but not "Active"; Unknown when missing or containing neither |
| Flood.DistinctNames | src/lib/apis.ts:70-71 | The present non-empty names, each once, in order of first occurrence |
| Flood.Rivers | src/lib/apis.ts:70 | Rivers are distinct, and a name is listed exactly when it is non-empty and is some station's river; order of first occurrence is kept |
| Flood.Catchments | src/lib/apis.ts:71 | The same for catchment names |
| Flood.StationsSummary | src/lib/apis.ts:55-73 | Null exactly on a failed request; `count` is the number of stations found (0 when `items` is missing), `stations` the first ten of them in order, mapped field by field, with the de-duplicated rivers and catchments of all stations |
| Flood.WarningsSummary | src/lib/apis.ts:83-91 | Null exactly on a failed request; `count` is the number of warnings (0 when `items` is missing) and `warnings` the first five, in order |
| Postcode.FormatPostcode | src/lib/apis.ts:97 | The result has no lower-case letter; its only whitespace characters are plain spaces, and deleting them gives the upper-cased input without whitespace; it holds a space exactly when the compacted string has at least four characters ending in a digit and two word characters, and that space is the only one and sits before the last three characters |
| Postcode.InsertSpaceKeepsText | src/lib/apis.ts:97 | On a compacted postcode the replacement `$1 $2` changes nothing but whitespace, and the only whitespace it adds is plain spaces (`InsertSpacePosition` shows there is at most one) |
| Postcode.InsertSpacePosition | src/lib/apis.ts:97 | When the replacement applies, its single space sits before the last three characters |
| Postcode.FormatPostcodeIdempotent | src/lib/apis.ts:97 | Formatting an already formatted postcode returns it unchanged |
| Postcode.Clean | src/app/page.tsx:11 | The cleaned postcode has no whitespace and no lower-case letter |
| Postcode.CleanKeepsVisible | src/app/page.tsx:11 | The cleaned postcode is the input's non-whitespace characters, upper-cased, in their original order |
| Postcode.CleanIdempotent | src/app/page.tsx:11 | Cleaning a cleaned postcode changes nothing |
| Postcode.CleanIsCompact | src/app/page.tsx:11 | The page's cleaned postcode is the same string the house-price formatter starts from |
| Postcode.SubmitTarget | src/app/page.tsx:11-12 | The form navigates exactly when the input holds a non-whitespace character, and then to `/postcode/` followed by the non-empty cleaned postcode |
| HousePrices.Address | src/lib/apis.ts:125-127 | The address is the non-empty parts joined by one space: it starts with the house part and ends with the street, with exactly one character between them when both are present and that character a space; it is empty only when both parts are, and has no edge space when the parts have none |
| HousePrices.PropertyTypeName | src/lib/apis.ts:131 | The type is a non-empty string without `/`. It is "unknown" when the URI is missing, empty or ends in `/`; otherwise it is the URI's last `/`-separated segment (the longest suffix without a `/`) |
| HousePrices.PositivesSpec | src/lib/apis.ts:136 | Every kept amount is one of the amounts and positive; each positive amount is kept exactly as many times as it occurs, and no other amount is kept |
| HousePrices.AveragePrice | src/lib/apis.ts:136-137 | The average is 0 exactly when no amount is positive; otherwise it is the mean of the positive amounts rounded half up, and lies between their minimum and maximum |
| HousePrices.AverageExample | src/lib/apis.ts:136-137 | Amounts 100000, 200000, 0 and 300000 average to 200000: the zero is left out |
| HousePrices.PriceSummary | src/lib/apis.ts:122-139 | Null exactly on a failed request; one sale per result row in order, zero amounts included, `count` equal to the number of rows, and the average over the sales' amounts |
| BathingWater.NearestOf | src/lib/apis.ts:166-167 | At most five sites drawn from the candidates, in ascending distance, and no candidate left out is nearer than a site kept, counting repeated candidates copy by copy (a candidate kept fewer times than it occurs has a copy left out); among equally distant candidates the earliest ones are kept |
| BathingWater.NearestAreNearest | src/lib/apis.ts:156-167 | No positioned item whose site was left out is nearer than any site kept, also copy by copy: when a site is kept fewer times than positioned items give it, every site kept is at most as far as that item |
| BathingWater.NearestSites | src/lib/apis.ts:151-169 | Null exactly on a failed request; only items with a present non-zero latitude and longitude are candidates; the sites are the nearest of them, at most five, ascending by distance, none farther than any copy of a candidate left out, equally distant ones kept in upstream order, with classification "Unknown" and district "" by default |
| Species.GroupsOf | src/lib/apis.ts:183-185 | The groups are a permutation of the facet buckets, largest count first, equal counts in the service's order |
| Species.SpeciesSummary | src/lib/apis.ts:180-205 | Null exactly when the first request fails or the second throws; `totalRecords` defaults to 0; groups sorted by count, descending; equal counts in the service's order; `topSpecies` is empty when the second request's status fails, else the first fifteen buckets in order |
| ListedBuildings.GradeRank | src/lib/apis.ts:220-226 | Grade I ranks 0, II* ranks 1, II ranks 2, and any other or missing grade ranks 3 |
| ListedBuildings.ByGradeOrder | src/lib/apis.ts:221-226 | The buildings are a permutation of the service's list, ordered by grade rank, equal ranks in the service's order |
| ListedBuildings.BuildingsSummary | src/lib/apis.ts:215-233 | Null exactly on a failed request, an error body or a feature without attributes; otherwise the buildings are a grade-ordered permutation of the features, `count` their number, the per-grade counts are one entry per grade in order of appearance and sum to `count`, buildings of equal grade rank keep the service's order, and `exceededLimit` is false unless the service said true |
| AncientTrees.AllTrees | src/lib/apis.ts:257-262 | All trees as a permutation of the service's list, ordered by sort distance, ties in the service's order |
| AncientTrees.ZeroDistanceSortsFar | src/lib/apis.ts:262 | A tree exactly at the point is listed after a tree a positive distance under 999 km away, because a zero distance is read as missing |
| AncientTrees.NearestTrees | src/lib/apis.ts:262-272 | At most twenty trees, nearest first by sort distance, and no tree left out is nearer than one listed, counting identical trees copy by copy; among trees at the same sort distance (every tree without a position sorts at 999) those listed are the first in service order |
| AncientTrees.SpeciesRanking | src/lib/apis.ts:265-275 | Ten species, or every species when there are fewer, each once, most common first, each with its number of trees; a species left out is no more common than any listed; the counts sum to at most the number of trees, and to exactly that number (listing every species) when there are at most ten species |
| AncientTrees.SpeciesRankingTies | src/lib/apis.ts:266-275 | Equally common species are listed in the order they first occur among the sorted trees |
| AncientTrees.TreesSummary | src/lib/apis.ts:253-277 | Null exactly on a failed request, an error body or a feature without attributes; otherwise `count` is the number of trees, the per-category counts sum to it, and the tree and species lists are as above |
| NaturalEngland.ByNearest | src/lib/apis.ts:330-347 | A layer's areas as a permutation of its features, ascending by distance, ties in service order |
| NaturalEngland.LayerAreas | src/lib/apis.ts:285-347 | One layer's areas: a permutation of its features sorted by distance, equal distances in service order, empty when its query failed, and without a status unless it is the country-park layer |
| NaturalEngland.ProtectedAreas | src/lib/apis.ts:298-349 | Each of the three lists is its layer's areas sorted by distance, equal distances in service order (empty if its query failed), and open access is reported exactly when the count query succeeded with a positive count |
| Seqs.DedupSpec | src/lib/apis.ts:70-71 | De-duplication keeps every element exactly once, in order of first occurrence |
| Sorting.SortByStable | src/lib/apis.ts:41 | The sort is stable: elements with equal keys keep their relative order |
| Sorting.SmallestFirst | src/lib/apis.ts:166-167 | The first `n` of the sorted list are sorted, drawn from the input, and no copy of an element left out has a smaller key: an element kept fewer times than it occurs in the input is no smaller than anything kept |
| Sorting.StableKeepsOrder | src/lib/apis.ts:41 | When a reordering keeps each key's elements in input order, as the stable sort does, any two of its elements with equal keys occur in the input in the same order |
| Counting.RankedTallyTies | src/lib/apis.ts:34-41 | In the ranked counter, keys with equal counts are listed in the order they first occur in the input |
| Sorting.SmallestFirstTies | src/lib/apis.ts:166-167 | Among elements with equal keys, the first `n` of the sorted list keep the earliest ones of the input, in input order |
| Seqs.FilterCount | src/lib/apis.ts:136 | A filter keeps each element satisfying the predicate exactly as many times as it occurs, and no other element |
| Counting.TallySpec | src/lib/apis.ts:34-38 | The counter's keys are the distinct keys in order of first appearance, each counting its occurrences, summing to the number of items |

## Left out

- Network, caching and timeouts: every `fetch`, `AbortSignal.timeout` and `CACHE_24H`. A request is modelled only by its outcome (`Fetch`).
- `Promise.all` in `getNaturalEngland`: the four requests are modelled as four independent outcomes.
- Distances: `haversine` and the ring-centroid approximation are floating-point geometry; distances are inputs.
- JSON decoding: inputs are already-parsed datatypes. A field of an unexpected type (a number where a string is expected, say) is not modelled.
- `parseInt` on the sale amount: the amount is `Option<int>`, and `NaN` from a non-numeric amount is not modelled.
- `new Date(...).getFullYear()` on the listing date: the year is a function `yearOf` passed in.
- URL and SPARQL query building: only the postcode formatter that feeds the query is modelled.
- `lookupPostcode`, a field copy, and `getAirQuality`, a stub returning null.
- Logging: the `console.error` call in the `catch` block of `getListedBuildings` writes to the console and changes no result; the model keeps only the `null` returned there.
- The page's rendering and `router.push` itself: `SubmitTarget` yields the route pushed.
- Upper-casing beyond ASCII: `toUpperCase` is modelled on ASCII letters only. The whitespace class is JavaScript's full `\s` set.
- Object key order: integer-like keys, which JavaScript lists first in `Object.entries`, are not modelled; counters keep pure insertion order. Keys that clash with `Object.prototype` members (such as a grade named `toString`) are not modelled either.
- HousePrices.AveragePrice: the mean is exact; floating-point rounding of sums above 2^53 is not modelled.
- NaturalEngland.ProtectedAreas: a feature without `attributes` throws outside any `try` and rejects the whole adapter; the model requires attributes to be present.
- AncientTrees.TreesSummary: category and species counts are stated over the trees in sorted order, which is a permutation of the service's list.
- Species.SpeciesSummary: a second response that is not valid JSON throws and yields null, like a network failure; it is modelled as `Threw`.

## Notes on the code's behaviour

- The formatter's pattern `^(.+?)(\d\w\w)$` inserts a space only when the
  last three characters are a digit followed by two word characters, and no
  line terminator precedes them. The formatter's contract states the first
  two. The third never fails there, because every line terminator is also
  `\s` whitespace, and that has been removed before the pattern is applied;
  `MatchesInward` keeps the condition for inputs that still hold it.
- `bySpecies` keeps at most ten species, so its counts sum to the number of
  trees only when there are at most ten species. The model states the
  inequality in general and the equality in that case.
- `filter(Boolean).join(' ')` does not trim: an address has no leading or
  trailing space when `paon` and `street` themselves have none, but a part
  with an edge space passes it on unless it is on the inside of the join.
- Ancient trees sort by `distance || 999`, so a tree exactly at the query
  point ranks with trees that have no position.
- A grade, tree category or species that is `null` is counted under the key
  "null", and one that is missing under "undefined": the two end up as
  separate entries of the same counter.

=== FILE: ancient_trees.dfy ===
/** The ancient-tree adapter (apis.ts `getAncientTrees`): trees in a box
    around the point, nearest first, with counts per category and the most
    common species. */
module AncientTrees {
  import opened Wrappers
  import opened Seqs
  import opened Sorting
  import opened Counting

  /** Trees listed. */
  const MaxTrees: nat := 20
  /** Species listed. */
  const MaxSpecies: nat := 10
  /** The sort distance of a tree without one. */
  const FarAway: real := 999.0

  /** Both fields become property names of a counter, so `null` is kept
      apart from a missing field. */
  datatype TreeAttributes = TreeAttributes(species: Field<string>, veteran: Field<string>)

  /** A feature as returned, with its great-circle distance from the point
      already computed; a feature without geometry has no distance. */
  datatype TreeFeature = TreeFeature(attributes: Option<TreeAttributes>, distance: Option<real>)

  datatype TreesBody = TreesBody(error: bool, features: Option<seq<TreeFeature>>)

  datatype Tree = Tree(species: Field<string>, category: Field<string>, distance: Option<real>)

  datatype TreesReport = TreesReport(trees: seq<Tree>, count: nat, byCategory: seq<Entry>, bySpecies: seq<Entry>)

  /** `distance || 999`: a missing distance, and also a distance of exactly
      zero, sorts as 999 km. */
  function SortDistance(t: Tree): real {
    if t.distance.Some? && t.distance.value != 0.0 then t.distance.value else FarAway
  }

  function CategoryKey(t: Tree): string {
    PropertyKey(t.category)
  }

  function SpeciesKey(t: Tree): string {
    PropertyKey(t.species)
  }

  predicate AllAttributed(features: seq<TreeFeature>) {
    forall i :: 0 <= i < |features| ==> features[i].attributes.Some?
  }

  function TreeOf(f: TreeFeature): Tree {
    var a := f.attributes.GetOr(TreeAttributes(Absent, Absent));
    Tree(a.species, a.veteran, f.distance)
  }

  /** The trees in the order the service returned them. */
  function Views(features: seq<TreeFeature>): (ts: seq<Tree>)
    ensures |ts| == |features|
    ensures forall i :: 0 <= i < |features| ==> ts[i] == TreeOf(features[i])
  {
    seq(|features|, i requires 0 <= i < |features| => TreeOf(features[i]))
  }

  /** All trees nearest first: a permutation of the service's list, ordered
      by sort distance, trees at the same sort distance in service order. */
  function AllTrees(views: seq<Tree>): (ts: seq<Tree>)
    ensures multiset(ts) == multiset(views)
    ensures SortedBy(ts, SortDistance)
    ensures forall k :: WithKey(ts, SortDistance, k) == WithKey(views, SortDistance, k)
  {
    SortBySorted(views, SortDistance);
    forall k ensures WithKey(SortBy(views, SortDistance), SortDistance, k) == WithKey(views, SortDistance, k) {
      SortByStable(views, SortDistance, k);
    }
    SortBy(views, SortDistance)
  }

  /** A tree exactly at the point sorts after any tree a positive distance
      closer than 999 km, because a zero distance is read as missing. */
  lemma ZeroDistanceSortsFar(atPoint: Tree, near: Tree)
    requires atPoint.distance == Some(0.0)
    requires near.distance.Some? && 0.0 < near.distance.value < FarAway
    ensures AllTrees([atPoint, near]) == [near, atPoint]
  {
  }

  /** The first trees listed: at most twenty, nearest first, and no tree
      left out is nearer (by sort distance) than one listed, counting
      identical trees as separate copies. Among trees at the same sort
      distance (all trees without a position, for one) those listed are
      the first in service order. */
  function NearestTrees(views: seq<Tree>): (top: seq<Tree>)
    ensures |top| == if |views| < MaxTrees then |views| else MaxTrees
    ensures multiset(top) <= multiset(views)
    ensures SortedBy(top, SortDistance)
    ensures forall t :: multiset(top)[t] < multiset(views)[t] ==>
              forall i :: 0 <= i < |top| ==> SortDistance(top[i]) <= SortDistance(t)
    ensures forall k :: WithKey(top, SortDistance, k) <= WithKey(views, SortDistance, k)
  {
    SmallestFirst(views, SortDistance, MaxTrees);
    SmallestFirstTies(views, SortDistance, MaxTrees);
    Take(AllTrees(views), MaxTrees)
  }

  /** `Object.entries(bySpecies).sort(...).slice(0, 10)`: the ten most
      common species, most common first. A species left out is no more
      common than any listed; when there are at most ten species all are
      listed and the counts add up to the number of trees. */
  function SpeciesRanking(names: seq<string>): (top: seq<Entry>)
    ensures |top| == if |Dedup(names)| < MaxSpecies then |Dedup(names)| else MaxSpecies
    ensures NoDups(Keys(top)) && NonIncreasing(top)
    ensures forall i :: 0 <= i < |top| ==> top[i].count == Occ(names, top[i].key) >= 1
    ensures forall k :: k in names && k !in Keys(top) ==>
              forall i :: 0 <= i < |top| ==> Occ(names, k) <= top[i].count
    ensures Total(top) <= |names|
    ensures |Dedup(names)| <= MaxSpecies ==>
              && Total(top) == |names|
              && forall k :: k in Keys(top) <==> k in names
  {
    var ranked := Ranked(Tally(names));
    var top := Take(ranked, MaxSpecies);
    RankedTallySpec(names);
    EntryCounts(ranked, names);
    TopEntries(ranked, MaxSpecies);
    forall k | k in names && k !in Keys(top)
      ensures forall i :: 0 <= i < |top| ==> Occ(names, k) <= top[i].count
    {
      LeftOutNoMore(ranked, MaxSpecies, k);
    }
    top
  }

  /** Equally common species are listed in the order they first occur. */
  lemma {:induction false} SpeciesRankingTies(names: seq<string>)
    ensures TiesInFirstOrder(SpeciesRanking(names), names)
  {
    TopRankedTies(names, MaxSpecies);
  }

  /** The adapter after its request: null unless the request succeeded,
      the body carries no error and every feature has attributes. */
  function TreesSummary(fetched: Fetch<TreesBody>): (r: Option<TreesReport>)
    ensures r.Some? <==> fetched.Ok? && !fetched.body.error && AllAttributed(fetched.body.features.GetOr([]))
    ensures r.Some? ==>
              var views, rep := Views(fetched.body.features.GetOr([])), r.value;
              && rep.count == |views|
              && rep.trees == NearestTrees(views)
              && rep.bySpecies == SpeciesRanking(Map(SpeciesKey, AllTrees(views)))
    ensures r.Some? ==>
              var rep := r.value;
              var categories := Map(CategoryKey, AllTrees(Views(fetched.body.features.GetOr([]))));
              && Keys(rep.byCategory) == Dedup(categories)
              && Total(rep.byCategory) == rep.count
              && (forall i :: 0 <= i < |rep.byCategory| ==>
                    rep.byCategory[i].count == Occ(categories, rep.byCategory[i].key) >= 1)
  {
    if fetched.Ok? && !fetched.body.error && AllAttributed(fetched.body.features.GetOr([])) then
      var all := AllTrees(Views(fetched.body.features.GetOr([])));
      var categories := Map(CategoryKey, all);
      TallySpec(categories);
      DedupSpec(categories);
      EntryCounts(Tally(categories), categories);
      Some(TreesReport(NearestTrees(Views(fetched.body.features.GetOr([]))), |all|, Tally(categories),
                       SpeciesRanking(Map(SpeciesKey, all))))
    else
      None
  }
}

=== FILE: bathing_water.dfy ===
/** The bathing-water adapter (apis.ts `getBathingWater`): the upstream list
    has no location filter, so the sites with a position are ranked by
    distance and the five nearest are kept. */
module BathingWater {
  import opened Wrappers
  import opened Seqs
  import opened Text
  import opened Sorting

  /** Sites kept. */
  const MaxSites: nat := 5

  /** A bathing water as listed upstream, with the classification of its
      latest compliance assessment and its district name flattened; the
      distance from the query point is supplied from outside. */
  datatype BathingItem = BathingItem(
    name: Option<string>, lat: Option<real>, long: Option<real>,
    classification: Option<string>, district: Option<string>, distance: real)

  /** The listing; `items` is None when `result` or `result.items` is missing. */
  datatype BathingBody = BathingBody(items: Option<seq<BathingItem>>)

  datatype Site = Site(
    name: Option<string>, lat: real, lng: real,
    classification: string, district: string, distance: real)

  datatype BathingReport = BathingReport(sites: seq<Site>)

  /** `i.lat && i.long`: both coordinates present and non-zero. */
  predicate HasPosition(i: BathingItem) {
    i.lat.Some? && i.lat.value != 0.0 && i.long.Some? && i.long.value != 0.0
  }

  /** The displayed form of an item: "Unknown" classification and empty
      district by default. */
  function SiteOf(i: BathingItem): Site {
    Site(i.name, i.lat.GetOr(0.0), i.long.GetOr(0.0),
         OrDefault(i.classification, "Unknown"), OrDefault(i.district, ""), i.distance)
  }

  function SiteDistance(s: Site): real {
    s.distance
  }

  /** The positioned items' sites in upstream order. */
  function Candidates(items: seq<BathingItem>): seq<Site> {
    Map(SiteOf, Filter(HasPosition, items))
  }

  /** `.sort(...).slice(0, 5)`: at most five of the candidates, nearest
      first, and no copy of a candidate left out is nearer than a site
      kept; among equally distant candidates the earliest are kept. */
  function NearestOf(candidates: seq<Site>): (sites: seq<Site>)
    ensures |sites| == if |candidates| < MaxSites then |candidates| else MaxSites
    ensures multiset(sites) <= multiset(candidates)
    ensures SortedBy(sites, SiteDistance)
    ensures forall c :: multiset(sites)[c] < multiset(candidates)[c] ==>
              forall j :: 0 <= j < |sites| ==> sites[j].distance <= c.distance
    ensures forall k :: WithKey(sites, SiteDistance, k) <= WithKey(candidates, SiteDistance, k)
  {
    SmallestFirst(candidates, SiteDistance, MaxSites);
    SmallestFirstTies(candidates, SiteDistance, MaxSites);
    Take(SortBy(candidates, SiteDistance), MaxSites)
  }

  /** `.filter(...).map(...).sort(...).slice(0, 5)`. */
  function Nearest(items: seq<BathingItem>): seq<Site> {
    NearestOf(Candidates(items))
  }

  /** No positioned item whose site was left out is nearer than a site
      kept, counting copies: a site kept fewer times than positioned items
      give it has a copy left out. */
  lemma {:induction false} NearestAreNearest(items: seq<BathingItem>)
    ensures var sites := Nearest(items);
            forall i, j :: 0 <= i < |items| && HasPosition(items[i]) && SiteOf(items[i]) !in sites && 0 <= j < |sites|
              ==> sites[j].distance <= items[i].distance
    ensures var sites := Nearest(items);
            forall i, j :: 0 <= i < |items| && HasPosition(items[i])
                           && multiset(sites)[SiteOf(items[i])] < multiset(Candidates(items))[SiteOf(items[i])]
                           && 0 <= j < |sites|
              ==> sites[j].distance <= items[i].distance
  {
    FilterSpec(HasPosition, items);
  }

  /** The bathing-water adapter after its request: at most five sites, all
      with a position, nearest first, and none farther than any copy of a
      positioned site left out. */
  function NearestSites(fetched: Fetch<BathingBody>): (r: Option<BathingReport>)
    ensures r.Some? <==> fetched.Ok?
    ensures r.Some? ==>
              var items, sites := fetched.body.items.GetOr([]), r.value.sites;
              var positioned := Filter(HasPosition, items);
              && |sites| == (if |positioned| < MaxSites then |positioned| else MaxSites)
              && multiset(sites) <= multiset(Map(SiteOf, positioned))
              && SortedBy(sites, SiteDistance)
              && (forall k :: WithKey(sites, SiteDistance, k) <= WithKey(Map(SiteOf, positioned), SiteDistance, k))
              && (forall i, j :: 0 <= i < |items| && HasPosition(items[i]) && SiteOf(items[i]) !in sites && 0 <= j < |sites|
                    ==> sites[j].distance <= items[i].distance)
              && (forall c :: multiset(sites)[c] < multiset(Map(SiteOf, positioned))[c] ==>
                    forall j :: 0 <= j < |sites| ==> sites[j].distance <= c.distance)
  {
    if fetched.Ok? then
      NearestAreNearest(fetched.body.items.GetOr([]));
      Some(BathingReport(Nearest(fetched.body.items.GetOr([]))))
    else
      None
  }
}

=== FILE: counting.dfy ===
/** Counting records by a string key, as the adapters do with a plain object
    used as a counter (`byKey[k] = (byKey[k] || 0) + 1`). The object's
    entries are modelled as a sequence in insertion order, which is the order
    `Object.entries` reports for non-numeric keys. */
module Counting {
  import opened Wrappers
  import opened Seqs
  import opened Sorting

  /** One `[key, count]` entry of a counter object. */
  datatype Entry = Entry(key: string, count: nat)

  /** The keys of `t`, in order. */
  function Keys(t: seq<Entry>): (r: seq<string>)
    ensures |r| == |t|
    ensures forall i :: 0 <= i < |t| ==> r[i] == t[i].key
  {
    if |t| == 0 then [] else [t[0].key] + Keys(t[1..])
  }

  /** The count recorded for `k` (summed over every entry with that key, so
      it is 0 for an absent key). */
  function CountOf(t: seq<Entry>, k: string): nat
  {
    if |t| == 0 then 0
    else (if t[0].key == k then t[0].count else 0) + CountOf(t[1..], k)
  }

  /** The key a field's value is counted under: a property name is
      converted to a string, so a missing field (`undefined`) is stored
      under the text "undefined" and an explicit `null` under "null". */
  function PropertyKey(v: Field<string>): string {
    match v
    case Absent => "undefined"
    case Null => "null"
    case Present(s) => s
  }

  /** Sum of all counts. */
  function Total(t: seq<Entry>): nat
  {
    if |t| == 0 then 0 else t[0].count + Total(t[1..])
  }

  /** Every entry records at least one occurrence. */
  ghost predicate Positive(t: seq<Entry>) {
    forall i :: 0 <= i < |t| ==> t[i].count >= 1
  }

  /** Counts never increase along `t`. */
  ghost predicate NonIncreasing(t: seq<Entry>) {
    forall i, j :: 0 <= i < j < |t| ==> t[i].count >= t[j].count
  }

  /** Counts one more occurrence of `k`: an existing entry is incremented in
      place, a new key is appended. */
  function Bump(t: seq<Entry>, k: string): seq<Entry>
  {
    if |t| == 0 then [Entry(k, 1)]
    else if t[0].key == k then [Entry(k, t[0].count + 1)] + t[1..]
    else [t[0]] + Bump(t[1..], k)
  }

  /** The counter object built by visiting `s` from left to right. */
  function Tally(s: seq<string>): seq<Entry>
  {
    if |s| == 0 then [] else Bump(Tally(s[..|s| - 1]), s[|s| - 1])
  }

  lemma {:induction false} BumpSpec(t: seq<Entry>, k: string)
    ensures Keys(Bump(t, k)) == if k in Keys(t) then Keys(t) else Keys(t) + [k]
    ensures Total(Bump(t, k)) == Total(t) + 1
    ensures forall j :: CountOf(Bump(t, k), j) == CountOf(t, j) + (if j == k then 1 else 0)
    ensures Positive(t) ==> Positive(Bump(t, k))
  {
    if |t| > 0 {
      var b := Bump(t, k);
      assert Keys(t) == [t[0].key] + Keys(t[1..]);
      if t[0].key == k {
        assert b[1..] == t[1..];
        assert Keys(b) == [k] + Keys(t[1..]);
      } else {
        BumpSpec(t[1..], k);
        assert b[1..] == Bump(t[1..], k);
        assert Keys(b) == [t[0].key] + Keys(Bump(t[1..], k));
      }
    }
  }

  /** The counter built from `s` has one entry per distinct element, in order
      of first occurrence, each holding the number of occurrences; the counts
      add up to the number of records. */
  lemma {:induction false} TallySpec(s: seq<string>)
    ensures Keys(Tally(s)) == Dedup(s)
    ensures Total(Tally(s)) == |s|
    ensures forall k :: CountOf(Tally(s), k) == Occ(s, k)
    ensures Positive(Tally(s))
  {
    if |s| > 0 {
      TallySpec(s[..|s| - 1]);
      BumpSpec(Tally(s[..|s| - 1]), s[|s| - 1]);
    }
  }

  /** With distinct keys, an entry's count is the count recorded for its key. */
  lemma {:induction false} CountOfDistinct(t: seq<Entry>, i: nat)
    requires NoDups(Keys(t)) && i < |t|
    ensures CountOf(t, t[i].key) == t[i].count
  {
    if i == 0 {
      CountOfAbsent(t[1..], t[0].key);
    } else {
      CountOfDistinct(t[1..], i - 1);
    }
  }

  lemma {:induction false} CountOfAbsent(t: seq<Entry>, k: string)
    requires k !in Keys(t)
    ensures CountOf(t, k) == 0
  {
    if |t| > 0 {
      assert Keys(t)[1..] == Keys(t[1..]);
      CountOfAbsent(t[1..], k);
    }
  }

  /** Inserting an entry while sorting adds exactly its count to the total. */
  lemma {:induction false} InsertTotal(x: Entry, t: seq<Entry>, key: Entry -> real)
    ensures Total(Insert(x, t, key)) == x.count + Total(t)
  {
    var r := Insert(x, t, key);
    if |t| == 0 || key(x) <= key(t[0]) {
      assert r[1..] == t;
    } else {
      InsertTotal(x, t[1..], key);
      assert r[1..] == Insert(x, t[1..], key);
    }
  }

  /** Inserting an entry while sorting adds its count to its own key only. */
  lemma {:induction false} InsertCountOf(x: Entry, t: seq<Entry>, key: Entry -> real, k: string)
    ensures CountOf(Insert(x, t, key), k) == CountOf(t, k) + (if x.key == k then x.count else 0)
  {
    var r := Insert(x, t, key);
    if |t| == 0 || key(x) <= key(t[0]) {
      assert r[1..] == t;
    } else {
      InsertCountOf(x, t[1..], key, k);
      assert r[1..] == Insert(x, t[1..], key);
    }
  }

  /** Inserting an entry while sorting adds its key and nothing else. */
  lemma {:induction false} InsertKeys(x: Entry, t: seq<Entry>, key: Entry -> real)
    ensures forall k :: k in Keys(Insert(x, t, key)) <==> k == x.key || k in Keys(t)
  {
    var r := Insert(x, t, key);
    if |t| == 0 || key(x) <= key(t[0]) {
      assert r[1..] == t;
      assert Keys(r) == [x.key] + Keys(t);
    } else {
      InsertKeys(x, t[1..], key);
      assert r[1..] == Insert(x, t[1..], key);
      assert Keys(r) == [t[0].key] + Keys(r[1..]);
      assert Keys(t) == [t[0].key] + Keys(t[1..]);
    }
  }

  /** Inserting an entry with a fresh key keeps the keys distinct. */
  lemma {:induction false} InsertDistinct(x: Entry, t: seq<Entry>, key: Entry -> real)
    requires NoDups(Keys(t)) && x.key !in Keys(t)
    ensures NoDups(Keys(Insert(x, t, key)))
  {
    var r := Insert(x, t, key);
    if |t| == 0 || key(x) <= key(t[0]) {
      assert Keys(r) == [x.key] + Keys(t) by {
        assert r[1..] == t;
      }
      NoDupsCons(x.key, Keys(t));
    } else {
      var rest := Insert(x, t[1..], key);
      assert Keys(t) == [t[0].key] + Keys(t[1..]);
      NoDupsCons(t[0].key, Keys(t[1..]));
      InsertDistinct(x, t[1..], key);
      assert t[0].key !in Keys(rest) by {
        InsertKeys(x, t[1..], key);
      }
      assert Keys(r) == [t[0].key] + Keys(rest) by {
        assert r[1..] == rest;
      }
      NoDupsCons(t[0].key, Keys(rest));
    }
  }

  /** Sorting a counter, by any key, keeps the total. */
  lemma {:induction false} SortTotal(t: seq<Entry>, key: Entry -> real)
    ensures Total(SortBy(t, key)) == Total(t)
  {
    if |t| > 0 {
      SortTotal(t[1..], key);
      InsertTotal(t[0], SortBy(t[1..], key), key);
    }
  }

  /** Sorting a counter, by any key, keeps the count of every key. */
  lemma {:induction false} SortCountOf(t: seq<Entry>, key: Entry -> real, k: string)
    ensures CountOf(SortBy(t, key), k) == CountOf(t, k)
  {
    if |t| > 0 {
      SortCountOf(t[1..], key, k);
      InsertCountOf(t[0], SortBy(t[1..], key), key, k);
    }
  }

  /** Sorting a counter, by any key, keeps its set of keys. */
  lemma {:induction false} SortKeys(t: seq<Entry>, key: Entry -> real)
    ensures forall k :: k in Keys(SortBy(t, key)) <==> k in Keys(t)
  {
    if |t| > 0 {
      SortKeys(t[1..], key);
      InsertKeys(t[0], SortBy(t[1..], key), key);
      assert Keys(t) == [t[0].key] + Keys(t[1..]);
    }
  }

  /** Sorting a counter with distinct keys, by any key, keeps them distinct. */
  lemma {:induction false} SortDistinct(t: seq<Entry>, key: Entry -> real)
    requires NoDups(Keys(t))
    ensures NoDups(Keys(SortBy(t, key)))
  {
    if |t| > 0 {
      assert Keys(t) == [t[0].key] + Keys(t[1..]);
      NoDupsCons(t[0].key, Keys(t[1..]));
      SortDistinct(t[1..], key);
      SortKeys(t[1..], key);
      InsertDistinct(t[0], SortBy(t[1..], key), key);
    }
  }

  /** Sorting a counter with positive counts keeps them positive. */
  lemma {:induction false} SortPositive(t: seq<Entry>, key: Entry -> real)
    requires Positive(t)
    ensures Positive(SortBy(t, key))
  {
    var r := SortBy(t, key);
    forall i | 0 <= i < |r| ensures r[i].count >= 1 {
      assert r[i] in multiset(t);
      var j :| 0 <= j < |t| && t[j] == r[i];
    }
  }

  /** Sort key for "largest count first". */
  function ByCountDesc(e: Entry): real {
    Descending(e.count)
  }

  /** `Object.entries(counter).sort((a, b) => b[1] - a[1])`. */
  function Ranked(t: seq<Entry>): (r: seq<Entry>)
    ensures multiset(r) == multiset(t)
    ensures NonIncreasing(r)
    ensures Total(r) == Total(t)
    ensures forall k :: CountOf(r, k) == CountOf(t, k)
    ensures forall k :: k in Keys(r) <==> k in Keys(t)
    ensures NoDups(Keys(t)) ==> NoDups(Keys(r))
    ensures Positive(t) ==> Positive(r)
  {
    SortBySorted(t, ByCountDesc);
    SortTotal(t, ByCountDesc);
    forall k ensures CountOf(SortBy(t, ByCountDesc), k) == CountOf(t, k) {
      SortCountOf(t, ByCountDesc, k);
    }
    SortKeys(t, ByCountDesc);
    assert NoDups(Keys(t)) ==> NoDups(Keys(SortBy(t, ByCountDesc))) by {
      if NoDups(Keys(t)) {
        SortDistinct(t, ByCountDesc);
      }
    }
    assert Positive(t) ==> Positive(SortBy(t, ByCountDesc)) by {
      if Positive(t) {
        SortPositive(t, ByCountDesc);
      }
    }
    SortBy(t, ByCountDesc)
  }

  /** Entries with equal counts are listed in the order their keys first
      occur in `s`. */
  ghost predicate TiesInFirstOrder(t: seq<Entry>, s: seq<string>) {
    forall i, j :: 0 <= i < j < |t| && t[i].count == t[j].count ==>
      FirstIndex(s, t[i].key) < FirstIndex(s, t[j].key)
  }

  /** Equally common keys of the ranked counter keep the order in which
      they first occur in `s`, as the counter's insertion order and the
      stable sort together give. */
  lemma {:induction false} RankedTallyTies(s: seq<string>)
    ensures TiesInFirstOrder(Ranked(Tally(s)), s)
  {
    var r := Ranked(Tally(s));
    forall i, j | 0 <= i < j < |r| && r[i].count == r[j].count
      ensures FirstIndex(s, r[i].key) < FirstIndex(s, r[j].key)
    {
      RankedTiePair(s, i, j);
    }
  }

  /** The same holds for the first `n` entries of the ranked counter. */
  lemma {:induction false} TopRankedTies(s: seq<string>, n: nat)
    ensures TiesInFirstOrder(Take(Ranked(Tally(s)), n), s)
  {
    RankedTallyTies(s);
  }

  lemma {:induction false} RankedTiePair(s: seq<string>, i: nat, j: nat)
    requires i < j < |Ranked(Tally(s))| && Ranked(Tally(s))[i].count == Ranked(Tally(s))[j].count
    ensures FirstIndex(s, Ranked(Tally(s))[i].key) < FirstIndex(s, Ranked(Tally(s))[j].key)
  {
    var t, r := Tally(s), Ranked(Tally(s));
    assert r == SortBy(t, ByCountDesc);
    forall k ensures WithKey(r, ByCountDesc, k) == WithKey(t, ByCountDesc, k) {
      SortByStable(t, ByCountDesc, k);
    }
    assert ByCountDesc(r[i]) == ByCountDesc(r[j]);
    StableKeepsOrder(r, t, ByCountDesc, i, j);
    var p, q :| 0 <= p < q < |t| && t[p] == r[i] && t[q] == r[j];
    TallySpec(s);
    assert Keys(t)[p] == r[i].key && Keys(t)[q] == r[j].key;
    DedupSpec(s);
  }

  /** A counter over `s`, largest count first: one entry per distinct
      element, each with its number of occurrences, summing to `|s|`. */
  lemma {:induction false} RankedTallySpec(s: seq<string>)
    ensures NoDups(Keys(Ranked(Tally(s))))
    ensures forall k :: k in Keys(Ranked(Tally(s))) <==> k in s
    ensures forall k :: CountOf(Ranked(Tally(s)), k) == Occ(s, k)
    ensures Total(Ranked(Tally(s))) == |s|
    ensures NonIncreasing(Ranked(Tally(s))) && Positive(Ranked(Tally(s)))
    ensures |Ranked(Tally(s))| == |Dedup(s)|
  {
    TallySpec(s);
    DedupSpec(s);
    assert |multiset(Ranked(Tally(s)))| == |multiset(Tally(s))|;
  }

  /** Each entry's count is the number of occurrences of its key. */
  lemma EntryCounts(t: seq<Entry>, s: seq<string>)
    requires NoDups(Keys(t))
    requires forall k :: CountOf(t, k) == Occ(s, k)
    ensures forall i :: 0 <= i < |t| ==> t[i].count == Occ(s, t[i].key)
  {
    forall i | 0 <= i < |t| ensures t[i].count == Occ(s, t[i].key) {
      CountOfDistinct(t, i);
    }
  }

  /** A prefix of a counter never counts more than the whole counter. */
  lemma {:induction false} TotalPrefix(t: seq<Entry>, n: nat)
    requires n <= |t|
    ensures Total(t[..n]) <= Total(t)
  {
    if n > 0 {
      assert t[..n][1..] == t[1..][..n - 1];
      TotalPrefix(t[1..], n - 1);
    }
  }

  /** In a counter ordered by non-increasing count, a key outside the first
      `n` entries counts no more than any of them. */
  lemma LeftOutNoMore(t: seq<Entry>, n: nat, k: string)
    requires NonIncreasing(t) && NoDups(Keys(t))
    requires k in Keys(t) && k !in Keys(Take(t, n))
    ensures forall i :: 0 <= i < |Take(t, n)| ==> CountOf(t, k) <= t[i].count
  {
    var top := Take(t, n);
    var p :| 0 <= p < |t| && Keys(t)[p] == k;
    forall i | 0 <= i < |top| ensures t[i].key != k {
      assert Keys(top)[i] == top[i].key == t[i].key;
    }
    CountOfDistinct(t, p);
  }

  /** The first `n` entries of a counter keep its distinct keys and its
      order of counts, and count no more than the whole counter. */
  lemma TopEntries(t: seq<Entry>, n: nat)
    ensures NoDups(Keys(t)) ==> NoDups(Keys(Take(t, n)))
    ensures NonIncreasing(t) ==> NonIncreasing(Take(t, n))
    ensures Positive(t) ==> Positive(Take(t, n))
    ensures Total(Take(t, n)) <= Total(t)
  {
    var top := Take(t, n);
    assert Keys(top) == Keys(t)[..|top|];
    TotalPrefix(t, |top|);
  }
}

=== FILE: crime.dfy ===
/** The street-crime adapter's summary (apis.ts `getCrime`): crimes are
    counted per category, categories are relabelled with spaces for dashes,
    and the counts are listed largest first. */
module Crime {
  import opened Wrappers
  import opened Seqs
  import opened Text
  import opened Counting

  /** One street-level crime as the police API returns it. */
  datatype CrimeRecord = CrimeRecord(category: Option<string>, month: Option<string>)

  datatype CrimeReport = CrimeReport(total: nat, byCategory: seq<Entry>, month: string)

  /** Every crime carries a category (otherwise relabelling throws). */
  predicate AllCategorised(crimes: seq<CrimeRecord>) {
    forall i :: 0 <= i < |crimes| ==> crimes[i].category.Some?
  }

  /** The display label of each crime's category. */
  function Labels(crimes: seq<CrimeRecord>): (ls: seq<string>)
    requires AllCategorised(crimes)
    ensures |ls| == |crimes|
    ensures forall i :: 0 <= i < |crimes| ==> ls[i] == DashesToSpaces(crimes[i].category.value)
  {
    seq(|crimes|, i requires 0 <= i < |crimes| => DashesToSpaces(crimes[i].category.value))
  }

  /** The month of the first crime, or "unknown". */
  function ReportMonth(crimes: seq<CrimeRecord>): string {
    if |crimes| == 0 then "unknown" else OrDefault(crimes[0].month, "unknown")
  }

  /** The per-category counter, most common category first: one entry per
      distinct label, counting that label's occurrences. */
  function CategoryCounts(labels: seq<string>): (t: seq<Entry>)
    ensures Total(t) == |labels|
    ensures NoDups(Keys(t))
    ensures forall k :: k in Keys(t) <==> k in labels
    ensures forall i :: 0 <= i < |t| ==> t[i].key in labels && t[i].count == Occ(labels, t[i].key)
    ensures NonIncreasing(t)
  {
    var t := Ranked(Tally(labels));
    RankedTallySpec(labels);
    EntryCounts(t, labels);
    assert forall i :: 0 <= i < |t| ==> t[i].key in labels by {
      forall i | 0 <= i < |t| ensures t[i].key in labels {
        assert t[i].key == Keys(t)[i];
      }
    }
    t
  }

  /** Equally common categories are listed in the order they first occur. */
  lemma {:induction false} CategoryCountsTies(labels: seq<string>)
    ensures TiesInFirstOrder(CategoryCounts(labels), labels)
  {
    RankedTallyTies(labels);
  }

  /** The crime adapter after its request: null unless the request
      succeeded and every crime has a category. */
  function CrimeSummary(fetched: Fetch<seq<CrimeRecord>>): (r: Option<CrimeReport>)
    ensures r.Some? <==> fetched.Ok? && AllCategorised(fetched.body)
    ensures r.Some? ==>
              var crimes, rep := fetched.body, r.value;
              && rep.total == |crimes|
              && Total(rep.byCategory) == rep.total
              && NoDups(Keys(rep.byCategory))
              && (forall k :: k in Keys(rep.byCategory) <==> k in Labels(crimes))
              && (forall i :: 0 <= i < |rep.byCategory| ==>
                    && '-' !in rep.byCategory[i].key
                    && rep.byCategory[i].count == Occ(Labels(crimes), rep.byCategory[i].key))
              && NonIncreasing(rep.byCategory)
    ensures r.Some? ==>
              var crimes := fetched.body;
              if |crimes| > 0 && crimes[0].month.Some? && crimes[0].month.value != ""
              then r.value.month == crimes[0].month.value
              else r.value.month == "unknown"
  {
    if fetched.Ok? && AllCategorised(fetched.body) then
      var crimes := fetched.body;
      var labels := Labels(crimes);
      var byCategory := CategoryCounts(labels);
      assert forall i :: 0 <= i < |byCategory| ==> '-' !in byCategory[i].key by {
        forall i | 0 <= i < |byCategory| ensures '-' !in byCategory[i].key {
          var j :| 0 <= j < |labels| && labels[j] == byCategory[i].key;
        }
      }
      Some(CrimeReport(|crimes|, byCategory, ReportMonth(crimes)))
    else
      None
  }
}

=== FILE: flood.dfy ===
/** The flood-monitoring adapters (apis.ts `getFloodStations`,
    `getFloodWarnings`): a capped list for display beside the true total,
    the de-duplicated river and catchment names, and the station status. */
module Flood {
  import opened Wrappers
  import opened Seqs
  import opened Text

  /** Stations shown in detail. */
  const MaxStations: nat := 10
  /** Warnings shown in detail. */
  const MaxWarnings: nat := 5

  /** A monitoring station as the API returns it; `distance` is the
      great-circle distance from the query point, supplied from outside. */
  datatype Station = Station(
    stationLabel: Option<string>, riverName: Option<string>, town: Option<string>,
    catchmentName: Option<string>, status: Option<string>,
    lat: Option<real>, long: Option<real>, distance: real)

  datatype StationStatus = Active | Closed | Unknown

  datatype StationView = StationView(
    stationLabel: Option<string>, river: Option<string>, town: Option<string>,
    catchment: Option<string>, status: StationStatus,
    lat: Option<real>, lng: Option<real>, distance: real)

  /** The stations response; `items` may be missing. */
  datatype StationsBody = StationsBody(items: Option<seq<Station>>)

  datatype StationsReport = StationsReport(
    count: nat, stations: seq<StationView>, rivers: seq<string>, catchments: seq<string>)

  /** A flood warning as the API returns it. */
  datatype Warning = Warning(
    description: Option<string>, severityLevel: Option<int>,
    message: Option<string>, eaAreaName: Option<string>)

  datatype WarningView = WarningView(
    description: Option<string>, severity: Option<int>,
    message: Option<string>, area: Option<string>)

  datatype WarningsBody = WarningsBody(items: Option<seq<Warning>>)

  datatype WarningsReport = WarningsReport(count: nat, warnings: seq<WarningView>)

  /** A station's status string classified: "Active" anywhere wins, then
      "Closed"; a missing status is unknown. */
  function StatusOf(status: Option<string>): (r: StationStatus)
    ensures r == Active <==> status.Some? && Contains(status.value, "Active")
    ensures r == Closed <==> status.Some? && !Contains(status.value, "Active") && Contains(status.value, "Closed")
    ensures r == Unknown <==> status.None? || (!Contains(status.value, "Active") && !Contains(status.value, "Closed"))
  {
    if status.Some? && Includes(status.value, "Active") then Active
    else if status.Some? && Includes(status.value, "Closed") then Closed
    else Unknown
  }

  function StationViewOf(s: Station): StationView {
    StationView(s.stationLabel, s.riverName, s.town, s.catchmentName, StatusOf(s.status), s.lat, s.long, s.distance)
  }

  function RiverOf(s: Station): Option<string> {
    s.riverName
  }

  function CatchmentOf(s: Station): Option<string> {
    s.catchmentName
  }

  /** A name that `.filter(Boolean)` keeps: present and non-empty. */
  predicate IsNamed(name: Option<string>) {
    name.Some? && name.value != ""
  }

  function NameOf(name: Option<string>): string {
    name.GetOr("")
  }

  /** `.filter(Boolean)` on optional strings: the present, non-empty ones. */
  function Named(names: seq<Option<string>>): (r: seq<string>)
    ensures forall x :: x in r <==> x != "" && Some(x) in names
  {
    var kept := Filter(IsNamed, names);
    FilterSpec(IsNamed, names);
    forall x | x in Map(NameOf, kept) ensures x != "" && Some(x) in names {
      var i :| 0 <= i < |kept| && NameOf(kept[i]) == x;
      assert kept[i] in multiset(names);
    }
    forall x | x != "" && Some(x) in names ensures x in Map(NameOf, kept) {
      var i :| 0 <= i < |names| && names[i] == Some(x);
      var j :| 0 <= j < |kept| && kept[j] == Some(x);
      assert Map(NameOf, kept)[j] == x;
    }
    Map(NameOf, kept)
  }

  /** The distinct non-empty names of `names`, in order of first occurrence. */
  function DistinctNames(names: seq<Option<string>>): (r: seq<string>)
    ensures NoDups(r)
    ensures forall x :: x in r <==> x != "" && Some(x) in names
    ensures forall i, j :: 0 <= i < j < |r| ==>
              FirstIndex(Named(names), r[i]) < FirstIndex(Named(names), r[j])
  {
    DedupSpec(Named(names));
    Dedup(Named(names))
  }

  /** `Array.from(new Set(stations.map(s => s.riverName).filter(Boolean)))`. */
  function Rivers(items: seq<Station>): (r: seq<string>)
    ensures NoDups(r)
    ensures forall x :: x in r <==> x != "" && exists i :: 0 <= i < |items| && items[i].riverName == Some(x)
    ensures forall i, j :: 0 <= i < j < |r| ==>
              FirstIndex(Named(Map(RiverOf, items)), r[i]) < FirstIndex(Named(Map(RiverOf, items)), r[j])
  {
    var names := Map(RiverOf, items);
    forall x | Some(x) in names ensures exists i :: 0 <= i < |items| && items[i].riverName == Some(x) {
      var i :| 0 <= i < |names| && names[i] == Some(x);
    }
    DistinctNames(names)
  }

  /** The same de-duplication for catchment names. */
  function Catchments(items: seq<Station>): (r: seq<string>)
    ensures NoDups(r)
    ensures forall x :: x in r <==> x != "" && exists i :: 0 <= i < |items| && items[i].catchmentName == Some(x)
    ensures forall i, j :: 0 <= i < j < |r| ==>
              FirstIndex(Named(Map(CatchmentOf, items)), r[i]) < FirstIndex(Named(Map(CatchmentOf, items)), r[j])
  {
    var names := Map(CatchmentOf, items);
    forall x | Some(x) in names ensures exists i :: 0 <= i < |items| && items[i].catchmentName == Some(x) {
      var i :| 0 <= i < |names| && names[i] == Some(x);
    }
    DistinctNames(names)
  }

  /** The stations adapter after its request: the first ten stations for
      display, the number of stations found, and every non-empty river and
      catchment name once. */
  function StationsSummary(fetched: Fetch<StationsBody>): (r: Option<StationsReport>)
    ensures r.Some? <==> fetched.Ok?
    ensures r.Some? ==>
              var items, rep := fetched.body.items.GetOr([]), r.value;
              && rep.count == |items|
              && |rep.stations| == (if |items| < MaxStations then |items| else MaxStations)
              && (forall i :: 0 <= i < |rep.stations| ==> rep.stations[i] == StationViewOf(items[i]))
              && rep.rivers == Rivers(items)
              && rep.catchments == Catchments(items)
  {
    if fetched.Ok? then
      var items := fetched.body.items.GetOr([]);
      Some(StationsReport(|items|, Map(StationViewOf, Take(items, MaxStations)), Rivers(items), Catchments(items)))
    else
      None
  }

  function WarningViewOf(w: Warning): WarningView {
    WarningView(w.description, w.severityLevel, w.message, w.eaAreaName)
  }

  /** The warnings adapter after its request: the first five warnings and
      the number of warnings (0 when `items` is missing). */
  function WarningsSummary(fetched: Fetch<WarningsBody>): (r: Option<WarningsReport>)
    ensures r.Some? <==> fetched.Ok?
    ensures r.Some? ==>
              var items, rep := fetched.body.items.GetOr([]), r.value;
              && rep.count == |items|
              && |rep.warnings| == (if |items| < MaxWarnings then |items| else MaxWarnings)
              && (forall i :: 0 <= i < |rep.warnings| ==> rep.warnings[i] == WarningViewOf(items[i]))
  {
    if fetched.Ok? then
      var items := fetched.body.items.GetOr([]);
      Some(WarningsReport(|items|, Map(WarningViewOf, Take(items, MaxWarnings))))
    else
      None
  }
}

=== FILE: house_prices.dfy ===
/** The house-price adapter's post-processing (apis.ts `getHousePrices`):
    each SPARQL result row becomes a sale, and the average price is the
    mean of the positive amounts rounded half up. The query text built
    from the formatted postcode is not modelled; the formatter itself is in
    module Postcode. */
module HousePrices {
  import opened Wrappers
  import opened Seqs
  import opened Text

  /** One SPARQL result row. `amount` is the integer `parseInt` reads from
      the price (None when the field is missing or empty); the other fields
      are the bound values, when bound. */
  datatype Binding = Binding(
    amount: Option<int>, date: Option<string>, propertyType: Option<string>,
    paon: Option<string>, street: Option<string>)

  /** The SPARQL response; `bindings` is None when `results` or
      `results.bindings` is missing. */
  datatype SparqlBody = SparqlBody(bindings: Option<seq<Binding>>)

  datatype Sale = Sale(amount: int, date: Option<string>, propertyType: string, address: string)

  datatype PriceReport = PriceReport(sales: seq<Sale>, averagePrice: int, count: nat)

  /** Neither the first nor the last character is a space. */
  predicate NoEdgeSpace(s: string) {
    |s| == 0 || (s[0] != ' ' && s[|s| - 1] != ' ')
  }

  /** `[paon, street].filter(Boolean).join(' ')`: the non-empty parts,
      separated by one space. */
  function Address(paon: Option<string>, street: Option<string>): (a: string)
    ensures var p, s := OrDefault(paon, ""), OrDefault(street, "");
            && |a| == |p| + |s| + (if p != "" && s != "" then 1 else 0)
            && (a == "" <==> p == "" && s == "")
            && (p != "" ==> a[..|p|] == p)
            && (s != "" ==> a[|a| - |s|..] == s)
            && (p != "" && s != "" ==> a[|p|] == ' ')
            && (NoEdgeSpace(p) && NoEdgeSpace(s) ==> NoEdgeSpace(a))
  {
    var p, s := OrDefault(paon, ""), OrDefault(street, "");
    if p == "" then s
    else if s == "" then p
    else p + " " + s
  }

  /** `propertyType?.split('/').pop() || 'unknown'`: the last path segment
      of the property-type URI, or "unknown" when it is missing or empty. */
  function PropertyTypeName(propertyType: Option<string>): (r: string)
    ensures r != "" && '/' !in r
    ensures r != "unknown" ==>
              && propertyType.Some?
              && var t := propertyType.value;
              && |r| <= |t| && t[|t| - |r|..] == r
              && (|r| == |t| || t[|t| - |r| - 1] == '/')
    ensures propertyType.None? ==> r == "unknown"
    ensures propertyType.Some? ==>
              var t := propertyType.value;
              if |t| == 0 || t[|t| - 1] == '/' then r == "unknown"
              else |r| <= |t| && t[|t| - |r|..] == r && (|r| == |t| || t[|t| - |r| - 1] == '/')
  {
    if propertyType.None? then "unknown"
    else
      var seg := LastSegment(propertyType.value);
      if seg == "" then "unknown" else seg
  }

  function SaleOf(b: Binding): Sale {
    Sale(b.amount.GetOr(0), b.date, PropertyTypeName(b.propertyType), Address(b.paon, b.street))
  }

  function AmountOf(s: Sale): int {
    s.amount
  }

  predicate IsPositive(x: int) {
    x > 0
  }

  /** `amounts.filter(a => a > 0)`. */
  function Positives(amounts: seq<int>): seq<int> {
    Filter(IsPositive, amounts)
  }

  /** The kept amounts are the positive ones, each as often as it occurs. */
  lemma PositivesSpec(amounts: seq<int>)
    ensures forall x :: x in Positives(amounts) ==> x > 0 && x in amounts
    ensures forall x :: x in amounts && x > 0 ==> x in Positives(amounts)
    ensures forall x :: multiset(Positives(amounts))[x] == if x > 0 then multiset(amounts)[x] else 0
  {
    FilterCount(IsPositive, amounts);
    var ps := Positives(amounts);
    forall x | x in ps ensures x > 0 && x in amounts {
      assert x in multiset(ps);
    }
    forall x | x in amounts && x > 0 ensures x in ps {
      assert x in multiset(amounts);
    }
  }

  /** Least element. */
  function SeqMin(s: seq<int>): (m: int)
    requires |s| > 0
    ensures m in s && forall i :: 0 <= i < |s| ==> m <= s[i]
  {
    if |s| == 1 then s[0]
    else
      var m := SeqMin(s[1..]);
      assert s == [s[0]] + s[1..];
      if s[0] <= m then s[0] else m
  }

  /** Greatest element. */
  function SeqMax(s: seq<int>): (m: int)
    requires |s| > 0
    ensures m in s && forall i :: 0 <= i < |s| ==> s[i] <= m
  {
    if |s| == 1 then s[0]
    else
      var m := SeqMax(s[1..]);
      assert s == [s[0]] + s[1..];
      if s[0] >= m then s[0] else m
  }

  /** A sum lies between `|s|` times the least and `|s|` times the greatest element. */
  lemma {:induction false} SumBounds(s: seq<int>, lo: int, hi: int)
    requires forall i :: 0 <= i < |s| ==> lo <= s[i] <= hi
    ensures |s| * lo <= Sum(s) <= |s| * hi
  {
    if |s| > 0 {
      SumBounds(s[1..], lo, hi);
      assert |s| * lo == lo + (|s| - 1) * lo;
      assert |s| * hi == hi + (|s| - 1) * hi;
    }
  }

  /** `Math.round(sum / n)` for a positive mean, in integers. */
  function RoundedMean(sum: int, n: int): int
    requires n > 0
  {
    (2 * sum + n) / (2 * n)
  }

  /** The rounded mean is the integer nearest to `sum / n`, halves rounding up. */
  lemma RoundedMeanNearest(sum: int, n: int)
    requires n > 0
    ensures 2 * sum - n < 2 * n * RoundedMean(sum, n) <= 2 * sum + n
  {
  }

  /** A rounded mean of values between `lo` and `hi` is between them too. */
  lemma {:induction false} RoundedMeanBetween(sum: int, n: int, lo: int, hi: int)
    requires n > 0 && n * lo <= sum <= n * hi
    ensures lo <= RoundedMean(sum, n) <= hi
  {
    var q := RoundedMean(sum, n);
    RoundedMeanNearest(sum, n);
    assert n * (2 * lo - 1) < n * (2 * q);
    CancelFactor(n, 2 * lo - 1, 2 * q);
    assert n * (2 * q) < n * (2 * hi + 2);
    CancelFactor(n, 2 * q, 2 * hi + 2);
  }

  /** A positive factor can be cancelled from a strict inequality. */
  lemma CancelFactor(n: int, a: int, b: int)
    requires n > 0 && n * a < n * b
    ensures a < b
  {
  }

  /** The average price: the mean of the positive amounts, rounded half up,
      or 0 when there are none. */
  function AveragePrice(amounts: seq<int>): (avg: int)
    ensures avg == 0 <==> forall i :: 0 <= i < |amounts| ==> amounts[i] <= 0
    ensures var ps := Positives(amounts);
            |ps| > 0 ==> 2 * Sum(ps) - |ps| < 2 * |ps| * avg <= 2 * Sum(ps) + |ps|
    ensures var ps := Positives(amounts);
            |ps| > 0 ==> SeqMin(ps) <= avg <= SeqMax(ps)
  {
    var ps := Positives(amounts);
    PositivesSpec(amounts);
    if |ps| == 0 then
      assert forall i :: 0 <= i < |amounts| ==> amounts[i] !in ps;
      0
    else
      RoundedMeanNearest(Sum(ps), |ps|);
      SumBounds(ps, SeqMin(ps), SeqMax(ps));
      RoundedMeanBetween(Sum(ps), |ps|, SeqMin(ps), SeqMax(ps));
      assert SeqMin(ps) > 0;
      RoundedMean(Sum(ps), |ps|)
  }

  /** The worked example: a zero amount is left out of the average. */
  lemma AverageExample()
    ensures AveragePrice([100000, 200000, 0, 300000]) == 200000
  {
  }

  /** The house-price adapter after its request: one sale per row (zero
      amounts included), their number, and the average price. */
  function PriceSummary(fetched: Fetch<SparqlBody>): (r: Option<PriceReport>)
    ensures r.Some? <==> fetched.Ok?
    ensures r.Some? ==>
              var rows, rep := fetched.body.bindings.GetOr([]), r.value;
              && rep.count == |rows| == |rep.sales|
              && (forall i :: 0 <= i < |rows| ==> rep.sales[i] == SaleOf(rows[i]))
              && rep.averagePrice == AveragePrice(Map(AmountOf, rep.sales))
  {
    if fetched.Ok? then
      var rows := fetched.body.bindings.GetOr([]);
      var sales := Map(SaleOf, rows);
      Some(PriceReport(sales, AveragePrice(Map(AmountOf, sales)), |sales|))
    else
      None
  }
}

=== FILE: listed_buildings.dfy ===
/** The listed-buildings adapter (apis.ts `getListedBuildings`): buildings
    near the point, ordered by listing grade, with a count per grade. */
module ListedBuildings {
  import opened Wrappers
  import opened Seqs
  import opened Sorting
  import opened Counting

  /** The fields requested for one listed building. `listDate` is a
      millisecond timestamp; `grade` keeps `null` apart from a missing
      field because it becomes a property name. */
  datatype Attributes = Attributes(name: Option<string>, grade: Field<string>,
                                   listDate: Option<int>, listEntry: Option<int>)

  /** A feature whose `attributes` object may be missing. */
  datatype Feature = Feature(attributes: Option<Attributes>)

  datatype BuildingsBody = BuildingsBody(error: bool, features: Option<seq<Feature>>,
                                         exceededTransferLimit: Option<bool>)

  datatype Building = Building(name: Option<string>, grade: Field<string>,
                               listYear: Option<int>, listEntry: Option<int>)

  datatype BuildingsReport = BuildingsReport(buildings: seq<Building>, count: nat,
                                             byGrade: seq<Entry>, exceededLimit: bool)

  /** Position of a grade in the display order: I, then II*, then II, then
      any other, missing or null grade (`gradeOrder[g] ?? 3`). */
  function GradeRank(grade: Field<string>): (rank: nat)
    ensures rank <= 3
    ensures rank == 0 <==> grade == Present("I")
    ensures rank == 1 <==> grade == Present("II*")
    ensures rank == 2 <==> grade == Present("II")
  {
    match grade
    case Present(g) => if g == "I" then 0 else if g == "II*" then 1 else if g == "II" then 2 else 3
    case _ => 3
  }

  function RankKey(b: Building): real {
    GradeRank(b.grade) as real
  }

  function GradeKey(b: Building): string {
    PropertyKey(b.grade)
  }

  /** Every feature carries its attributes (otherwise reading a field throws
      and the adapter yields null). */
  predicate AllAttributed(features: seq<Feature>) {
    forall i :: 0 <= i < |features| ==> features[i].attributes.Some?
  }

  /** The building shown for one feature. A missing or zero listing date
      gives no year; `yearOf` is the calendar year of a timestamp. */
  function BuildingOf(f: Feature, yearOf: int -> int): Building {
    var a := f.attributes.GetOr(Attributes(None, Absent, None, None));
    var year := if a.listDate.Some? && a.listDate.value != 0 then Some(yearOf(a.listDate.value)) else None;
    Building(a.name, a.grade, year, a.listEntry)
  }

  /** The buildings in the order the service returned them. */
  function Views(features: seq<Feature>, yearOf: int -> int): (bs: seq<Building>)
    ensures |bs| == |features|
    ensures forall i :: 0 <= i < |features| ==> bs[i] == BuildingOf(features[i], yearOf)
  {
    seq(|features|, i requires 0 <= i < |features| => BuildingOf(features[i], yearOf))
  }

  /** The buildings ordered by grade: a permutation of the service's list in
      which grades never go down the display order and buildings of equal
      rank keep the service's order. */
  function ByGradeOrder(views: seq<Building>): (bs: seq<Building>)
    ensures multiset(bs) == multiset(views)
    ensures SortedBy(bs, RankKey)
    ensures forall k :: WithKey(bs, RankKey, k) == WithKey(views, RankKey, k)
  {
    SortBySorted(views, RankKey);
    forall k ensures WithKey(SortBy(views, RankKey), RankKey, k) == WithKey(views, RankKey, k) {
      SortByStable(views, RankKey, k);
    }
    SortBy(views, RankKey)
  }

  /** The adapter after its request. */
  function BuildingsSummary(fetched: Fetch<BuildingsBody>, yearOf: int -> int): (r: Option<BuildingsReport>)
    ensures r.Some? <==> fetched.Ok? && !fetched.body.error && AllAttributed(fetched.body.features.GetOr([]))
    ensures r.Some? ==>
              var views, rep := Views(fetched.body.features.GetOr([]), yearOf), r.value;
              && multiset(rep.buildings) == multiset(views)
              && SortedBy(rep.buildings, RankKey)
              && (forall k :: WithKey(rep.buildings, RankKey, k) == WithKey(views, RankKey, k))
              && rep.count == |views|
              && rep.exceededLimit == (fetched.body.exceededTransferLimit == Some(true))
    ensures r.Some? ==>
              var rep := r.value;
              var grades := Map(GradeKey, rep.buildings);
              && Keys(rep.byGrade) == Dedup(grades)
              && Total(rep.byGrade) == rep.count
              && (forall i :: 0 <= i < |rep.byGrade| ==>
                    rep.byGrade[i].count == Occ(grades, rep.byGrade[i].key) >= 1)
  {
    if fetched.Ok? && !fetched.body.error && AllAttributed(fetched.body.features.GetOr([])) then
      var buildings := ByGradeOrder(Views(fetched.body.features.GetOr([]), yearOf));
      var grades := Map(GradeKey, buildings);
      TallySpec(grades);
      DedupSpec(grades);
      EntryCounts(Tally(grades), grades);
      Some(BuildingsReport(buildings, |buildings|, Tally(grades),
                           fetched.body.exceededTransferLimit == Some(true)))
    else
      None
  }
}

=== FILE: natural_england.dfy ===
/** The Natural England adapter (apis.ts `getNaturalEngland`): protected
    areas of three layers near the point, each nearest first, and whether
    any open-access land is nearby. */
module NaturalEngland {
  import opened Wrappers
  import opened Sorting

  /** The requested fields of one area; `status` is requested only for
      country parks. */
  datatype AreaAttributes = AreaAttributes(name: Option<string>, measure: Option<real>, status: Option<string>)

  /** An area as returned, with its distance from the point already
      computed from its geometry. */
  datatype AreaFeature = AreaFeature(attributes: AreaAttributes, distance: real)

  datatype LayerBody = LayerBody(error: bool, features: Option<seq<AreaFeature>>)

  /** A count-only query's response. */
  datatype CountBody = CountBody(count: Option<int>)

  datatype Area = Area(name: Option<string>, areaHa: Option<real>, status: Option<string>, distance: real)

  datatype NatureReport = NatureReport(sssis: seq<Area>, nnrs: seq<Area>, greenSpaces: seq<Area>, openAccess: bool)

  /** A layer query that produced no feature list: the request threw, its
      status was not a success, or the body reports an error. */
  predicate LayerFailed(f: Fetch<LayerBody>) {
    !f.Ok? || f.body.error
  }

  /** The features of one layer, none when its query failed. */
  function LayerFeatures(f: Fetch<LayerBody>): seq<AreaFeature> {
    if LayerFailed(f) then [] else f.body.features.GetOr([])
  }

  /** The open-access feature count, 0 when the query failed. */
  function AccessCount(f: Fetch<CountBody>): int {
    if f.Ok? then f.body.count.GetOr(0) else 0
  }

  function AreaOf(f: AreaFeature, withStatus: bool): Area {
    var a := f.attributes;
    Area(a.name, a.measure, if withStatus then a.status else None, f.distance)
  }

  /** The areas of a layer in service order. */
  function Areas(features: seq<AreaFeature>, withStatus: bool): (areas: seq<Area>)
    ensures |areas| == |features|
    ensures forall i :: 0 <= i < |features| ==> areas[i] == AreaOf(features[i], withStatus)
  {
    seq(|features|, i requires 0 <= i < |features| => AreaOf(features[i], withStatus))
  }

  function AreaDistance(a: Area): real {
    a.distance
  }

  /** `.sort((a, b) => a.distance - b.distance)`: a permutation in ascending
      distance, equally distant areas in service order. */
  function ByNearest(areas: seq<Area>): (r: seq<Area>)
    ensures multiset(r) == multiset(areas)
    ensures SortedBy(r, AreaDistance)
    ensures forall k :: WithKey(r, AreaDistance, k) == WithKey(areas, AreaDistance, k)
  {
    SortBySorted(areas, AreaDistance);
    forall k ensures WithKey(SortBy(areas, AreaDistance), AreaDistance, k) == WithKey(areas, AreaDistance, k) {
      SortByStable(areas, AreaDistance, k);
    }
    SortBy(areas, AreaDistance)
  }

  /** One layer's list: nearest first, empty when the query failed, and
      without a status unless the layer asked for one. */
  function LayerAreas(f: Fetch<LayerBody>, withStatus: bool): (r: seq<Area>)
    ensures multiset(r) == multiset(Areas(LayerFeatures(f), withStatus))
    ensures SortedBy(r, AreaDistance)
    ensures forall k :: WithKey(r, AreaDistance, k) == WithKey(Areas(LayerFeatures(f), withStatus), AreaDistance, k)
    ensures LayerFailed(f) ==> r == []
    ensures !withStatus ==> forall i :: 0 <= i < |r| ==> r[i].status.None?
  {
    var areas := Areas(LayerFeatures(f), withStatus);
    var r := ByNearest(areas);
    assert !withStatus ==> forall i :: 0 <= i < |r| ==> r[i].status.None? by {
      forall i | 0 <= i < |r| && !withStatus ensures r[i].status.None? {
        assert r[i] in multiset(areas);
        var j :| 0 <= j < |areas| && areas[j] == r[i];
      }
    }
    r
  }

  /** The adapter after its four requests. A failed layer contributes an
      empty list; open access is reported exactly when the count query
      succeeded with a positive count. */
  function ProtectedAreas(sssi: Fetch<LayerBody>, nnr: Fetch<LayerBody>, parks: Fetch<LayerBody>,
                          crow: Fetch<CountBody>): (r: NatureReport)
    ensures multiset(r.sssis) == multiset(Areas(LayerFeatures(sssi), false))
    ensures multiset(r.nnrs) == multiset(Areas(LayerFeatures(nnr), false))
    ensures multiset(r.greenSpaces) == multiset(Areas(LayerFeatures(parks), true))
    ensures SortedBy(r.sssis, AreaDistance)
    ensures SortedBy(r.nnrs, AreaDistance)
    ensures SortedBy(r.greenSpaces, AreaDistance)
    ensures forall k :: WithKey(r.sssis, AreaDistance, k) == WithKey(Areas(LayerFeatures(sssi), false), AreaDistance, k)
    ensures forall k :: WithKey(r.nnrs, AreaDistance, k) == WithKey(Areas(LayerFeatures(nnr), false), AreaDistance, k)
    ensures forall k :: WithKey(r.greenSpaces, AreaDistance, k) == WithKey(Areas(LayerFeatures(parks), true), AreaDistance, k)
    ensures forall i :: 0 <= i < |r.sssis| ==> r.sssis[i].status.None?
    ensures forall i :: 0 <= i < |r.nnrs| ==> r.nnrs[i].status.None?
    ensures LayerFailed(sssi) ==> r.sssis == []
    ensures LayerFailed(nnr) ==> r.nnrs == []
    ensures LayerFailed(parks) ==> r.greenSpaces == []
    ensures r.openAccess <==> crow.Ok? && crow.body.count.Some? && crow.body.count.value > 0
  {
    NatureReport(LayerAreas(sssi, false), LayerAreas(nnr, false), LayerAreas(parks, true), AccessCount(crow) > 0)
  }
}

=== FILE: postcode.dfy ===
/** The two postcode normalisations: the house-price adapter's formatter,
    which re-inserts the space before the inward code (apis.ts), and the
    search page's cleaning before it navigates (page.tsx). Case mapping is
    ASCII only; whitespace is JavaScript's full `\s` class. */
module Postcode {
  import opened Wrappers
  import opened Text

  /** The postcode upper-cased with all whitespace removed: the string the
      formatter's regular expression is applied to. */
  function Compact(pc: string): (t: string)
    ensures NoWhitespace(t) && NoLower(t)
  {
    UpperRemoveWhitespace(pc);
    RemoveWhitespace(Upper(pc))
  }

  /** `^(.+?)(\d\w\w)$` matches `t`. Because `$` anchors the second group at
      the end, the lazy first group can only be everything before the last
      three characters, and `.` must match each of those. */
  predicate MatchesInward(t: string) {
    && |t| >= 4
    && (forall i :: 0 <= i < |t| - 3 ==> !IsLineTerminator(t[i]))
    && IsDigit(t[|t| - 3]) && IsWordChar(t[|t| - 2]) && IsWordChar(t[|t| - 1])
  }

  /** The regular-expression replacement `'$1 $2'` applied to `t`. */
  function InsertSpace(t: string): string {
    if MatchesInward(t) then t[..|t| - 3] + " " + t[|t| - 3..] else t
  }

  /** On a compacted postcode, the replacement adds one space and nothing
      else: deleting whitespace gives the postcode back, and the only
      whitespace character it may hold is a plain space. */
  lemma InsertSpaceKeepsText(t: string)
    requires NoWhitespace(t) && NoLower(t)
    ensures NoLower(InsertSpace(t))
    ensures RemoveWhitespace(InsertSpace(t)) == t
    ensures forall i :: 0 <= i < |InsertSpace(t)| && IsWhitespace(InsertSpace(t)[i]) ==> InsertSpace(t)[i] == ' '
  {
    if MatchesInward(t) {
      var outward, inward := t[..|t| - 3], t[|t| - 3..];
      RemoveSpaceBetween(outward, inward);
      assert t == outward + inward;
      var r := InsertSpace(t);
      forall i | 0 <= i < |r| && i != |outward| ensures r[i] == t[if i < |outward| then i else i - 1] {
      }
    } else {
      RemoveWhitespaceNone(t);
    }
  }

  lemma {:induction false} RemoveSpaceBetween(a: string, b: string)
    requires NoWhitespace(a) && NoWhitespace(b)
    ensures RemoveWhitespace(a + " " + b) == a + b
  {
    var x := a + " ";
    assert RemoveWhitespace(x) == a by {
      RemoveWhitespaceAppend(a, " ");
      RemoveWhitespaceNone(a);
      assert RemoveWhitespace(" ") == "" by {
        assert IsWhitespace(' ');
        assert " "[1..] == "";
      }
    }
    assert RemoveWhitespace(x + b) == a + b by {
      RemoveWhitespaceAppend(x, b);
      RemoveWhitespaceNone(b);
    }
  }

  /** On a compacted postcode, the result holds a space exactly when the
      last three characters are a digit and two word characters, and then
      only in front of them. */
  lemma InsertSpacePosition(t: string)
    requires NoWhitespace(t)
    ensures var r := InsertSpace(t);
            ' ' in r <==> |t| >= 4 && IsDigit(t[|t| - 3]) && IsWordChar(t[|t| - 2]) && IsWordChar(t[|t| - 1])
    ensures var r := InsertSpace(t);
            ' ' in r ==> |r| >= 4 && r[|r| - 4] == ' ' && forall i :: 0 <= i < |r| && r[i] == ' ' ==> i == |r| - 4
  {
  }

  /** The house-price adapter's postcode formatter: upper-case, drop all
      whitespace, then insert a space before the last three characters when
      they are a digit followed by two word characters. */
  function FormatPostcode(pc: string): (r: string)
    ensures NoLower(r)
    ensures RemoveWhitespace(r) == RemoveWhitespace(Upper(pc))
    ensures forall i :: 0 <= i < |r| && IsWhitespace(r[i]) ==> r[i] == ' '
    ensures var t := Compact(pc);
            ' ' in r <==> |t| >= 4 && IsDigit(t[|t| - 3]) && IsWordChar(t[|t| - 2]) && IsWordChar(t[|t| - 1])
    ensures ' ' in r ==> |r| >= 4 && r[|r| - 4] == ' ' && forall i :: 0 <= i < |r| && r[i] == ' ' ==> i == |r| - 4
  {
    InsertSpaceKeepsText(Compact(pc));
    InsertSpacePosition(Compact(pc));
    InsertSpace(Compact(pc))
  }

  /** Formatting a formatted postcode changes nothing. */
  lemma {:induction false} FormatPostcodeIdempotent(pc: string)
    ensures FormatPostcode(FormatPostcode(pc)) == FormatPostcode(pc)
  {
    var r := FormatPostcode(pc);
    UpperNoLower(r);
    assert Compact(r) == Compact(pc);
  }

  /** The search page's cleaning: `trim`, drop whitespace runs, upper-case. */
  function Clean(input: string): (c: string)
    ensures NoWhitespace(c) && NoLower(c)
  {
    Upper(RemoveWhitespace(Trim(input)))
  }

  /** The cleaned string is the input's non-whitespace characters,
      upper-cased, in their original order: the `trim` adds nothing. */
  lemma {:induction false} CleanKeepsVisible(input: string)
    ensures Clean(input) == Upper(RemoveWhitespace(input))
  {
    RemoveWhitespaceTrim(input);
  }

  /** Cleaning a cleaned string changes nothing. */
  lemma CleanIdempotent(input: string)
    ensures Clean(Clean(input)) == Clean(input)
  {
    var c := Clean(input);
    CleanKeepsVisible(c);
    RemoveWhitespaceNone(c);
    UpperNoLower(c);
  }

  /** The page's cleaned postcode is exactly the string the house-price
      formatter starts from. */
  lemma CleanIsCompact(input: string)
    ensures Clean(input) == Compact(input)
  {
    CleanKeepsVisible(input);
    UpperRemoveWhitespace(input);
  }

  lemma {:induction false} RemoveWhitespaceEmpty(s: string)
    ensures RemoveWhitespace(s) == "" <==> forall i :: 0 <= i < |s| ==> IsWhitespace(s[i])
  {
    if |s| > 0 {
      RemoveWhitespaceEmpty(s[1..]);
      assert forall i :: 1 <= i < |s| ==> s[i] == s[1..][i - 1];
    }
  }

  /** The search form's submit handler: the route it navigates to, if any. */
  function SubmitTarget(input: string): (r: Option<string>)
    ensures r.Some? <==> exists i :: 0 <= i < |input| && !IsWhitespace(input[i])
    ensures r.Some? ==> r.value == "/postcode/" + Clean(input) && Clean(input) != ""
  {
    CleanKeepsVisible(input);
    RemoveWhitespaceEmpty(input);
    var cleaned := Clean(input);
    if cleaned != "" then Some("/postcode/" + cleaned) else None
  }
}

=== FILE: seqs.dfy ===
/** Sequence helpers: prefixes, mapping, filtering, counting and the
    insertion-ordered de-duplication that `Array.from(new Set(xs))` performs. */
module Seqs {

  /** `xs.slice(0, n)`: the first `n` elements, or all of them when there are fewer. */
  function Take<T>(s: seq<T>, n: nat): (r: seq<T>)
    ensures |r| == if |s| < n then |s| else n
    ensures r == s[..|r|]
  {
    if |s| <= n then s else s[..n]
  }

  /** `xs.map(f)`. */
  function Map<A, B>(f: A -> B, s: seq<A>): (r: seq<B>)
    ensures |r| == |s|
    ensures forall i :: 0 <= i < |s| ==> r[i] == f(s[i])
  {
    seq(|s|, i requires 0 <= i < |s| => f(s[i]))
  }

  /** `xs.filter(p)`: the elements satisfying `p`, in their original order. */
  function Filter<T>(p: T -> bool, s: seq<T>): (r: seq<T>)
    ensures |r| <= |s|
    ensures forall i :: 0 <= i < |r| ==> p(r[i])
  {
    if |s| == 0 then []
    else
      (if p(s[0]) then [s[0]] else []) + Filter(p, s[1..])
  }

  /** Filtering keeps every element satisfying `p` as often as it occurs,
      and no other. */
  lemma {:induction false} FilterCount<T>(p: T -> bool, s: seq<T>)
    ensures forall x :: multiset(Filter(p, s))[x] == if p(x) then multiset(s)[x] else 0
  {
    if |s| > 0 {
      FilterCount(p, s[1..]);
      assert s == [s[0]] + s[1..];
      assert multiset(s) == multiset{s[0]} + multiset(s[1..]);
      assert multiset(Filter(p, s)) == multiset(if p(s[0]) then [s[0]] else []) + multiset(Filter(p, s[1..]));
    }
  }

  /** The filtered sequence is drawn from `s` and holds every element of
      `s` that satisfies `p`. */
  lemma FilterSpec<T>(p: T -> bool, s: seq<T>)
    ensures multiset(Filter(p, s)) <= multiset(s)
    ensures forall i :: 0 <= i < |s| && p(s[i]) ==> s[i] in Filter(p, s)
  {
    var r := Filter(p, s);
    FilterCount(p, s);
    forall i | 0 <= i < |s| && p(s[i]) ensures s[i] in r {
      assert s[i] in multiset(s);
      assert s[i] in multiset(r);
    }
  }

  /** Number of occurrences of `x` in `s`. */
  function Occ<T(==)>(s: seq<T>, x: T): nat
  {
    if |s| == 0 then 0
    else Occ(s[..|s| - 1], x) + (if s[|s| - 1] == x then 1 else 0)
  }

  /** `s` holds no element twice. */
  predicate NoDups<T(==)>(s: seq<T>) {
    forall i, j :: 0 <= i < j < |s| ==> s[i] != s[j]
  }

  /** A sequence with a new head is duplicate-free exactly when its tail is. */
  lemma NoDupsCons<T>(x: T, s: seq<T>)
    ensures NoDups([x] + s) <==> x !in s && NoDups(s)
  {
    if x !in s && NoDups(s) {
      forall i, j | 0 <= i < j < |[x] + s| ensures ([x] + s)[i] != ([x] + s)[j] {
        if i > 0 {
          assert ([x] + s)[i] == s[i - 1];
        }
      }
    }
    if NoDups([x] + s) {
      forall i, j | 0 <= i < j < |s| ensures s[i] != s[j] {
        assert ([x] + s)[i + 1] == s[i] && ([x] + s)[j + 1] == s[j];
      }
      forall k | 0 <= k < |s| ensures s[k] != x {
        assert ([x] + s)[0] == x && ([x] + s)[k + 1] == s[k];
      }
    }
  }

  /** Position of the first occurrence of `x` in `s`, or `|s|` when there is none. */
  function FirstIndex<T(==)>(s: seq<T>, x: T): (i: nat)
    ensures i <= |s| && x !in s[..i]
    ensures i < |s| <==> x in s
    ensures i < |s| ==> s[i] == x
  {
    if |s| == 0 then 0
    else if s[0] == x then 0
    else
      assert s == [s[0]] + s[1..];
      1 + FirstIndex(s[1..], x)
  }

  /** The distinct elements of `s` in order of first occurrence, as a
      JavaScript `Set` built from `s` iterates them. */
  function Dedup<T(==)>(s: seq<T>): (r: seq<T>)
  {
    if |s| == 0 then []
    else
      var d := Dedup(s[..|s| - 1]);
      if s[|s| - 1] in d then d else d + [s[|s| - 1]]
  }

  /** The de-duplicated sequence holds every element of `s` exactly once,
      and lists them in order of their first occurrence in `s`. */
  lemma {:induction false} DedupSpec<T>(s: seq<T>)
    ensures NoDups(Dedup(s))
    ensures forall x :: x in Dedup(s) ==> x in s
    ensures forall x :: x in s ==> x in Dedup(s)
    ensures forall i, j :: 0 <= i < j < |Dedup(s)| ==>
              FirstIndex(s, Dedup(s)[i]) < FirstIndex(s, Dedup(s)[j])
  {
    if |s| > 0 {
      var p := s[..|s| - 1];
      var x := s[|s| - 1];
      assert s == p + [x];
      DedupSpec(p);
      var d := Dedup(p);
      forall y | y in p
        ensures FirstIndex(s, y) == FirstIndex(p, y)
      {
        FirstIndexPrefix(p, [x], y);
      }
      if x !in d {
        assert x !in p;
        assert FirstIndex(s, x) == |p| by {
          assert s[..|p|] == p;
        }
        forall i | 0 <= i < |d|
          ensures FirstIndex(s, d[i]) < FirstIndex(s, x)
        {
          var y := d[i];
          assert y in d;
          assert y in p;
          assert FirstIndex(s, y) == FirstIndex(p, y) < |p|;
        }
      }
    }
  }

  /** The first occurrence of an element of `a` in `a + b` is its first occurrence in `a`. */
  lemma {:induction false} FirstIndexPrefix<T>(a: seq<T>, b: seq<T>, y: T)
    requires y in a
    ensures y in a + b && FirstIndex(a + b, y) == FirstIndex(a, y)
  {
    var i := FirstIndex(a, y);
    assert (a + b)[i] == y;
    assert (a + b)[..i] == a[..i];
  }

  /** Sum of a sequence of integers. */
  function Sum(s: seq<int>): int
  {
    if |s| == 0 then 0 else s[0] + Sum(s[1..])
  }
}

=== FILE: sorting.dfy ===
/** Stable sorting by a numeric key, the behaviour of `Array.prototype.sort`
    with a consistent comparator `(a, b) => key(a) - key(b)`: the language
    requires the sort to be stable, and a stable sort's output is unique,
    so insertion sort models it exactly. A descending sort is a sort by the
    negated key. */
module Sorting {
  import opened Seqs

  /** The sort key that orders integers largest first. */
  function Descending(n: int): real {
    -(n as real)
  }

  /** `s` is in ascending order of `key`. */
  ghost predicate SortedBy<T>(s: seq<T>, key: T -> real) {
    forall i, j :: 0 <= i < j < |s| ==> key(s[i]) <= key(s[j])
  }

  /** The elements of `s` whose key is `k`, in their order in `s`. */
  function WithKey<T>(s: seq<T>, key: T -> real, k: real): seq<T>
  {
    if |s| == 0 then []
    else (if key(s[0]) == k then [s[0]] else []) + WithKey(s[1..], key, k)
  }

  /** Inserts `x` before the first element whose key is not smaller than its own. */
  function Insert<T>(x: T, s: seq<T>, key: T -> real): (r: seq<T>)
    ensures |r| == |s| + 1
    ensures multiset(r) == multiset(s) + multiset{x}
    ensures r[0] == x || (|s| > 0 && r[0] == s[0])
  {
    if |s| == 0 || key(x) <= key(s[0]) then [x] + s
    else
      assert s == [s[0]] + s[1..];
      [s[0]] + Insert(x, s[1..], key)
  }

  /** Insertion sort of `s` by `key`. */
  function SortBy<T>(s: seq<T>, key: T -> real): (r: seq<T>)
    ensures |r| == |s|
    ensures multiset(r) == multiset(s)
  {
    if |s| == 0 then []
    else
      assert s == [s[0]] + s[1..];
      Insert(s[0], SortBy(s[1..], key), key)
  }

  /** Inserting into a sorted sequence keeps it sorted. */
  lemma {:induction false} InsertSorted<T>(x: T, s: seq<T>, key: T -> real)
    requires SortedBy(s, key)
    ensures SortedBy(Insert(x, s, key), key)
  {
    if |s| > 0 && key(x) > key(s[0]) {
      var t := Insert(x, s[1..], key);
      InsertSorted(x, s[1..], key);
      assert key(s[0]) <= key(t[0]);
      assert Insert(x, s, key) == [s[0]] + t;
    }
  }

  /** The sort yields a permutation of its input in ascending key order. */
  lemma {:induction false} SortBySorted<T>(s: seq<T>, key: T -> real)
    ensures SortedBy(SortBy(s, key), key)
  {
    if |s| > 0 {
      SortBySorted(s[1..], key);
      InsertSorted(s[0], SortBy(s[1..], key), key);
    }
  }

  /** `x` lands in front of every element that shares its key. */
  lemma {:induction false} InsertWithKey<T>(x: T, s: seq<T>, key: T -> real, k: real)
    ensures WithKey(Insert(x, s, key), key, k)
         == (if key(x) == k then [x] else []) + WithKey(s, key, k)
  {
    var r := Insert(x, s, key);
    if |s| > 0 && key(x) > key(s[0]) {
      var t := Insert(x, s[1..], key);
      assert r[0] == s[0] && r[1..] == t;
      InsertWithKey(x, s[1..], key, k);
      assert WithKey(r, key, k) == (if key(s[0]) == k then [s[0]] else []) + WithKey(t, key, k);
      assert WithKey(s, key, k) == (if key(s[0]) == k then [s[0]] else []) + WithKey(s[1..], key, k);
      if key(s[0]) == k {
        assert key(x) != k;
      }
    } else {
      assert r[0] == x && r[1..] == s;
    }
  }

  /** Stability: elements with equal keys keep their relative order. */
  lemma {:induction false} SortByStable<T>(s: seq<T>, key: T -> real, k: real)
    ensures WithKey(SortBy(s, key), key, k) == WithKey(s, key, k)
  {
    if |s| > 0 {
      SortByStable(s[1..], key, k);
      InsertWithKey(s[0], SortBy(s[1..], key), key, k);
    }
  }

  /** In a sorted sequence, no copy of an element left out of the first
      `n` has a smaller key than any of them. */
  lemma SortedSplit<T>(s: seq<T>, key: T -> real, n: nat, y: T)
    requires SortedBy(s, key) && n <= |s|
    requires multiset(s[..n])[y] < multiset(s)[y]
    ensures forall i :: 0 <= i < n ==> key(s[i]) <= key(y)
  {
    assert s == s[..n] + s[n..];
    CopyLeftOut(s[..n], s[n..], y);
  }

  /** An element occurring more often in `a + b` than in `a` occurs in `b`. */
  lemma CopyLeftOut<T>(a: seq<T>, b: seq<T>, y: T)
    requires multiset(a)[y] < multiset(a + b)[y]
    ensures y in b
  {
    assert multiset(a + b) == multiset(a) + multiset(b);
  }

  /** The first `n` elements of a sorted sequence are sorted, drawn from
      it, and no smaller than any copy left out. */
  lemma {:induction false} TakeSorted<T>(s: seq<T>, key: T -> real, n: nat)
    requires SortedBy(s, key)
    ensures var top := Take(s, n);
            && SortedBy(top, key)
            && multiset(top) <= multiset(s)
            && forall y :: multiset(top)[y] < multiset(s)[y] ==> forall i :: 0 <= i < |top| ==> key(top[i]) <= key(y)
  {
    var top := Take(s, n);
    assert s == top + s[|top|..];
    forall y | multiset(top)[y] < multiset(s)[y]
      ensures forall i :: 0 <= i < |top| ==> key(top[i]) <= key(y)
    {
      SortedSplit(s, key, |top|, y);
    }
  }

  /** The first `n` elements of the sorted sequence: sorted, drawn from `s`,
      and no copy of an element of `s` left out has a smaller key than any
      of them. Copies are counted: an element kept fewer times than it
      occurs in `s` has a copy left out. */
  lemma {:induction false} SmallestFirst<T>(s: seq<T>, key: T -> real, n: nat)
    ensures var top := Take(SortBy(s, key), n);
            && SortedBy(top, key)
            && multiset(top) <= multiset(s)
            && forall y :: multiset(top)[y] < multiset(s)[y] ==> forall i :: 0 <= i < |top| ==> key(top[i]) <= key(y)
  {
    SortBySorted(s, key);
    TakeSorted(SortBy(s, key), key, n);
  }

  /** Keys are read element by element, so concatenation commutes with
      selecting one key. */
  lemma {:induction false} WithKeyAppend<T>(a: seq<T>, b: seq<T>, key: T -> real, k: real)
    ensures WithKey(a + b, key, k) == WithKey(a, key, k) + WithKey(b, key, k)
  {
    if |a| > 0 {
      assert (a + b)[1..] == a[1..] + b;
      WithKeyAppend(a[1..], b, key, k);
    } else {
      assert a + b == b;
    }
  }

  /** Ties among the first `n` of the sorted sequence go to the earliest
      elements: for every key, those kept are a prefix of the elements of
      `s` with that key, in `s`'s order. */
  lemma {:induction false} SmallestFirstTies<T>(s: seq<T>, key: T -> real, n: nat)
    ensures forall k :: WithKey(Take(SortBy(s, key), n), key, k) <= WithKey(s, key, k)
  {
    var sorted := SortBy(s, key);
    var top := Take(sorted, n);
    assert sorted == top + sorted[|top|..];
    forall k ensures WithKey(top, key, k) <= WithKey(s, key, k) {
      WithKeyAppend(top, sorted[|top|..], key, k);
      SortByStable(s, key, k);
    }
  }

  /** An element is selected for key `k` exactly when it is in `s` and has that key. */
  lemma {:induction false} WithKeyMembers<T>(s: seq<T>, key: T -> real, k: real, x: T)
    ensures x in WithKey(s, key, k) <==> x in s && key(x) == k
  {
    if |s| > 0 {
      WithKeyMembers(s[1..], key, k, x);
      assert s == [s[0]] + s[1..];
    }
  }

  /** Two elements of `s` with key `k` appear in `WithKey(s, key, k)` in
      the same order, at positions `a < b`. */
  lemma {:induction false} WithKeyPositions<T>(s: seq<T>, key: T -> real, k: real, i: nat, j: nat) returns (a: nat, b: nat)
    requires i < j < |s| && key(s[i]) == k && key(s[j]) == k
    ensures a < b < |WithKey(s, key, k)|
    ensures WithKey(s, key, k)[a] == s[i] && WithKey(s, key, k)[b] == s[j]
  {
    var w, w' := WithKey(s, key, k), WithKey(s[1..], key, k);
    if i == 0 {
      assert w == [s[0]] + w';
      assert s[j] == s[1..][j - 1];
      WithKeyMembers(s[1..], key, k, s[j]);
      var b' :| 0 <= b' < |w'| && w'[b'] == s[j];
      a, b := 0, b' + 1;
    } else {
      assert s[i] == s[1..][i - 1] && s[j] == s[1..][j - 1];
      var a', b' := WithKeyPositions(s[1..], key, k, i - 1, j - 1);
      var h: seq<T> := if key(s[0]) == k then [s[0]] else [];
      assert w == h + w';
      a, b := a' + |h|, b' + |h|;
    }
  }

  /** Two positions `a < b` of `WithKey(s, key, k)` come from positions
      `p < q` of `s`. */
  lemma {:induction false} WithKeyOrigins<T>(s: seq<T>, key: T -> real, k: real, a: nat, b: nat) returns (p: nat, q: nat)
    requires a < b < |WithKey(s, key, k)|
    ensures p < q < |s| && s[p] == WithKey(s, key, k)[a] && s[q] == WithKey(s, key, k)[b]
  {
    var w, w' := WithKey(s, key, k), WithKey(s[1..], key, k);
    if key(s[0]) == k {
      assert w == [s[0]] + w';
      if a == 0 {
        assert w[b] == w'[b - 1];
        WithKeyMembers(s[1..], key, k, w[b]);
        var q' :| 0 <= q' < |s[1..]| && s[1..][q'] == w[b];
        p, q := 0, q' + 1;
      } else {
        assert w[a] == w'[a - 1] && w[b] == w'[b - 1];
        var p', q' := WithKeyOrigins(s[1..], key, k, a - 1, b - 1);
        p, q := p' + 1, q' + 1;
      }
    } else {
      assert w == w';
      var p', q' := WithKeyOrigins(s[1..], key, k, a, b);
      p, q := p' + 1, q' + 1;
    }
  }

  /** When `r` selects the same elements as `s` for every key, two elements
      of `r` with equal keys occur in `s` in the same order. */
  lemma {:induction false} StableKeepsOrder<T>(r: seq<T>, s: seq<T>, key: T -> real, i: nat, j: nat)
    requires forall k :: WithKey(r, key, k) == WithKey(s, key, k)
    requires i < j < |r| && key(r[i]) == key(r[j])
    ensures exists p, q :: 0 <= p < q < |s| && s[p] == r[i] && s[q] == r[j]
  {
    var k := key(r[i]);
    var a, b := WithKeyPositions(r, key, k, i, j);
    assert WithKey(r, key, k) == WithKey(s, key, k);
    var p, q := WithKeyOrigins(s, key, k, a, b);
  }
}


=== FILE: species.dfy ===
/** The species-occurrence adapter (apis.ts `getSpecies`): two faceted
    queries, one for species-group counts and one for the most recorded
    species names. */
module Species {
  import opened Wrappers
  import opened Seqs
  import opened Sorting

  /** Species names shown. */
  const MaxTopSpecies: nat := 15

  /** One facet bucket (`label` in the response): its name and the number of records in it. */
  datatype FieldResult = FieldResult(name: Option<string>, count: int)

  datatype Facet = Facet(fieldResult: Option<seq<FieldResult>>)

  /** A faceted search response. */
  datatype FacetBody = FacetBody(totalRecords: Option<int>, facetResults: Option<seq<Facet>>)

  datatype NamedCount = NamedCount(name: Option<string>, count: int)

  datatype SpeciesReport = SpeciesReport(totalRecords: int, groups: seq<NamedCount>, topSpecies: seq<NamedCount>)

  /** `data.facetResults?.[0]?.fieldResult || []`. */
  function FirstFacet(b: FacetBody): seq<FieldResult> {
    if b.facetResults.Some? && |b.facetResults.value| > 0 && b.facetResults.value[0].fieldResult.Some?
    then b.facetResults.value[0].fieldResult.value
    else []
  }

  function NamedCountOf(f: FieldResult): NamedCount {
    NamedCount(f.name, f.count)
  }

  /** Sort key for "largest count first". */
  function CountDesc(g: NamedCount): real {
    Descending(g.count)
  }

  /** `.map(...).sort((a, b) => b.count - a.count)`. */
  function GroupsOf(facet: seq<FieldResult>): (groups: seq<NamedCount>)
    ensures multiset(groups) == multiset(Map(NamedCountOf, facet))
    ensures SortedBy(groups, CountDesc)
    ensures forall k :: WithKey(groups, CountDesc, k) == WithKey(Map(NamedCountOf, facet), CountDesc, k)
  {
    var views := Map(NamedCountOf, facet);
    SortBySorted(views, CountDesc);
    forall k ensures WithKey(SortBy(views, CountDesc), CountDesc, k) == WithKey(views, CountDesc, k) {
      SortByStable(views, CountDesc, k);
    }
    SortBy(views, CountDesc)
  }

  /** The species adapter after its requests. The second request is made
      only after the first succeeded; if it throws the whole adapter yields
      null, if its status is not a success the top-species list is empty. */
  function SpeciesSummary(groupsFetch: Fetch<FacetBody>, speciesFetch: Fetch<FacetBody>): (r: Option<SpeciesReport>)
    ensures r.Some? <==> groupsFetch.Ok? && !speciesFetch.Threw?
    ensures r.Some? ==>
              var body, rep := groupsFetch.body, r.value;
              && rep.totalRecords == body.totalRecords.GetOr(0)
              && multiset(rep.groups) == multiset(Map(NamedCountOf, FirstFacet(body)))
              && SortedBy(rep.groups, CountDesc)
              && (forall k :: WithKey(rep.groups, CountDesc, k) == WithKey(Map(NamedCountOf, FirstFacet(body)), CountDesc, k))
    ensures r.Some? && speciesFetch.NotOk? ==> r.value.topSpecies == []
    ensures r.Some? && speciesFetch.Ok? ==>
              var facet, top := FirstFacet(speciesFetch.body), r.value.topSpecies;
              && |top| == (if |facet| < MaxTopSpecies then |facet| else MaxTopSpecies)
              && (forall i :: 0 <= i < |top| ==> top[i] == NamedCountOf(facet[i]))
  {
    if groupsFetch.Ok? && !speciesFetch.Threw? then
      var groups := GroupsOf(FirstFacet(groupsFetch.body));
      var top := if speciesFetch.Ok? then Take(Map(NamedCountOf, FirstFacet(speciesFetch.body)), MaxTopSpecies) else [];
      Some(SpeciesReport(groupsFetch.body.totalRecords.GetOr(0), groups, top))
    else
      None
  }
}

=== FILE: text.dfy ===
/** String operations of the JavaScript runtime used by the adapters:
    the `\s` character class, ASCII case mapping, `trim`, `includes`,
    `split('/').pop()` and the `||` default for an optional string. */
module Text {
  import opened Wrappers

  /** JavaScript's `\s` (and the set `trim` removes): WhiteSpace and
      LineTerminator code points. */
  predicate IsWhitespace(c: char) {
    var n := c as int;
    || 0x09 <= n <= 0x0D || n == 0x20 || n == 0xA0 || n == 0x1680
    || 0x2000 <= n <= 0x200A || n == 0x2028 || n == 0x2029 || n == 0x202F
    || n == 0x205F || n == 0x3000 || n == 0xFEFF
  }

  /** The characters a regular-expression `.` does not match. */
  predicate IsLineTerminator(c: char) {
    var n := c as int;
    n == 0x0A || n == 0x0D || n == 0x2028 || n == 0x2029
  }

  /** Regular-expression `\d`. */
  predicate IsDigit(c: char) {
    '0' <= c <= '9'
  }

  /** Regular-expression `\w`. */
  predicate IsWordChar(c: char) {
    'A' <= c <= 'Z' || 'a' <= c <= 'z' || IsDigit(c) || c == '_'
  }

  predicate IsLower(c: char) {
    'a' <= c <= 'z'
  }

  /** `toUpperCase` on one character; only the ASCII letters are mapped. */
  function ToUpper(c: char): (u: char)
    ensures !IsLower(u)
    ensures IsWhitespace(u) == IsWhitespace(c)
    ensures !IsLower(c) ==> u == c
  {
    if IsLower(c) then (c as int - 32) as char else c
  }

  /** `s.toUpperCase()`. */
  function Upper(s: string): (r: string)
    ensures |r| == |s|
    ensures forall i :: 0 <= i < |s| ==> r[i] == ToUpper(s[i])
  {
    seq(|s|, i requires 0 <= i < |s| => ToUpper(s[i]))
  }

  predicate NoLower(s: string) {
    forall i :: 0 <= i < |s| ==> !IsLower(s[i])
  }

  predicate NoWhitespace(s: string) {
    forall i :: 0 <= i < |s| ==> !IsWhitespace(s[i])
  }

  // Global replacement of `\s` runs (of `\s+`, and equally of `\s` with a
  // star) by the empty string: every whitespace character removed, the rest
  // kept in order.
  function RemoveWhitespace(s: string): (r: string)
    ensures NoWhitespace(r)
    ensures |r| <= |s|
  {
    if |s| == 0 then ""
    else (if IsWhitespace(s[0]) then "" else [s[0]]) + RemoveWhitespace(s[1..])
  }

  lemma {:induction false} RemoveWhitespaceAppend(a: string, b: string)
    ensures RemoveWhitespace(a + b) == RemoveWhitespace(a) + RemoveWhitespace(b)
  {
    if |a| > 0 {
      assert (a + b)[1..] == a[1..] + b;
      RemoveWhitespaceAppend(a[1..], b);
    } else {
      assert a + b == b;
    }
  }

  /** Removing whitespace from a string that has none changes nothing. */
  lemma {:induction false} RemoveWhitespaceNone(s: string)
    requires NoWhitespace(s)
    ensures RemoveWhitespace(s) == s
  {
    if |s| > 0 {
      RemoveWhitespaceNone(s[1..]);
      assert s == [s[0]] + s[1..];
    }
  }

  lemma UpperAppend(a: string, b: string)
    ensures Upper(a + b) == Upper(a) + Upper(b)
  {
  }

  /** Upper-casing and whitespace removal commute, because case mapping
      neither creates nor removes whitespace. */
  lemma {:induction false} UpperRemoveWhitespace(s: string)
    ensures Upper(RemoveWhitespace(s)) == RemoveWhitespace(Upper(s))
  {
    if |s| > 0 {
      UpperRemoveWhitespace(s[1..]);
      assert Upper(s)[1..] == Upper(s[1..]);
      UpperAppend(if IsWhitespace(s[0]) then "" else [s[0]], RemoveWhitespace(s[1..]));
    }
  }

  /** Upper-casing a string without lower-case letters changes nothing. */
  lemma UpperNoLower(s: string)
    requires NoLower(s)
    ensures Upper(s) == s
  {
  }

  /** Leading whitespace removed. */
  function TrimStart(s: string): (r: string)
    ensures |r| <= |s| && r == s[|s| - |r|..]
    ensures forall i :: 0 <= i < |s| - |r| ==> IsWhitespace(s[i])
    ensures |r| == 0 || !IsWhitespace(r[0])
  {
    if |s| > 0 && IsWhitespace(s[0]) then TrimStart(s[1..]) else s
  }

  /** Trailing whitespace removed. */
  function TrimEnd(s: string): (r: string)
    ensures |r| <= |s| && r == s[..|r|]
    ensures forall i :: |r| <= i < |s| ==> IsWhitespace(s[i])
    ensures |r| == 0 || !IsWhitespace(r[|r| - 1])
  {
    if |s| > 0 && IsWhitespace(s[|s| - 1]) then TrimEnd(s[..|s| - 1]) else s
  }

  /** `s.trim()`. */
  function Trim(s: string): string {
    TrimEnd(TrimStart(s))
  }

  lemma {:induction false} RemoveWhitespaceTrimStart(s: string)
    ensures RemoveWhitespace(TrimStart(s)) == RemoveWhitespace(s)
  {
    if |s| > 0 && IsWhitespace(s[0]) {
      RemoveWhitespaceTrimStart(s[1..]);
    }
  }

  lemma {:induction false} RemoveWhitespaceTrimEnd(s: string)
    ensures RemoveWhitespace(TrimEnd(s)) == RemoveWhitespace(s)
  {
    if |s| > 0 && IsWhitespace(s[|s| - 1]) {
      RemoveWhitespaceTrimEnd(s[..|s| - 1]);
      assert s == s[..|s| - 1] + [s[|s| - 1]];
      RemoveWhitespaceAppend(s[..|s| - 1], [s[|s| - 1]]);
    }
  }

  /** Trimming never changes which non-whitespace characters remain. */
  lemma RemoveWhitespaceTrim(s: string)
    ensures RemoveWhitespace(Trim(s)) == RemoveWhitespace(s)
  {
    RemoveWhitespaceTrimStart(s);
    RemoveWhitespaceTrimEnd(TrimStart(s));
  }

  /** `p` occurs in `s` starting at position `i`. */
  ghost predicate OccursAt(s: string, p: string, i: int) {
    0 <= i && i + |p| <= |s| && s[i..i + |p|] == p
  }

  lemma OccursShift(s: string, p: string, i: int)
    requires |s| > 0 && 0 <= i
    ensures OccursAt(s[1..], p, i) <==> OccursAt(s, p, i + 1)
  {
  }

  /** `p` occurs somewhere in `s`. */
  ghost predicate Contains(s: string, p: string) {
    exists i :: OccursAt(s, p, i)
  }

  /** `s.includes(p)`. */
  function Includes(s: string, p: string): (b: bool)
    ensures b <==> Contains(s, p)
  {
    if |s| < |p| then false
    else if s[..|p|] == p then
      assert OccursAt(s, p, 0);
      true
    else
      var b := Includes(s[1..], p);
      forall i | OccursAt(s, p, i) ensures i >= 1 && OccursAt(s[1..], p, i - 1) {
        assert s[0..|p|] == s[..|p|];
        OccursShift(s, p, i - 1);
      }
      forall i | OccursAt(s[1..], p, i) ensures OccursAt(s, p, i + 1) {
        OccursShift(s, p, i);
      }
      b
  }

  /** `s.split('/').pop()`: the text after the last `/`, or all of `s`. */
  function LastSegment(s: string): (r: string)
    ensures '/' !in r
    ensures |r| <= |s| && r == s[|s| - |r|..]
    ensures |r| == |s| || s[|s| - |r| - 1] == '/'
  {
    if |s| == 0 || s[|s| - 1] == '/' then ""
    else LastSegment(s[..|s| - 1]) + [s[|s| - 1]]
  }

  /** `s.replace(/-/g, ' ')`. */
  function DashesToSpaces(s: string): (r: string)
    ensures |r| == |s| && '-' !in r
    ensures forall i :: 0 <= i < |s| ==> r[i] == if s[i] == '-' then ' ' else s[i]
  {
    seq(|s|, i requires 0 <= i < |s| => if s[i] == '-' then ' ' else s[i])
  }

  /** `field || d` for an optional string field: a missing or empty string
      gives the default. */
  function OrDefault(field: Option<string>, d: string): (r: string)
    ensures field.Some? && field.value != "" ==> r == field.value
    ensures field.None? || field.value == "" ==> r == d
  {
    if field.Some? && field.value != "" then field.value else d
  }
}

=== FILE: wrappers.dfy ===
/** Optional values and request outcomes shared by every adapter. */
module Wrappers {

  /** A JSON field that may be missing (`undefined`) or present. The
      adapters treat `null` exactly like a missing field wherever they read
      a value, so `None` stands for both; see `Field` for the one place the
      two differ. */
  datatype Option<T> = None | Some(value: T) {

    /** The present value, or `default` when the field is missing. */
    function GetOr(default: T): T {
      match this
      case Some(v) => v
      case None => default
    }
  }

  /** A JSON field whose value is used as a property name (`obj[v]`):
      there a missing field and an explicit `null` are stored under
      different keys, so the two are kept apart. */
  datatype Field<T> = Absent | Null | Present(value: T)

  /** What an adapter sees of one HTTP request: the request (or the JSON
      decoding of its body) threw, the response had a non-success status,
      or a parsed body came back. */
  datatype Fetch<T> = Threw | NotOk | Ok(body: T)
}
